=== FILE: README.md ===
# gfs request pipeline in Dafny

A model of the security-relevant request pipeline of gfs, a small Go file
server with JWT login, directory listings and uploads. The model works on
requests, responses and the upload store as plain values. The file system,
the JWT library, bcrypt and the clock are inputs. It covers:

- **Paths** (`paths.dfy`, `strings.dfy`). Go's lexical `path.Clean` and
  `path.Join` work on segments. Empty and `.` segments are dropped. `..`
  cancels the nearest earlier segment that is not `..`, and is dropped at
  the root of a rooted path. An empty result is written `.`.
  `strings.Split`, `Join`, `HasPrefix` and `HasSuffix` are modelled on
  characters.
- **Upload containment and dispatch** (`upload.dfy`). `uploadFile` joins
  the filename onto `Serve` and refuses the result unless it starts with the
  characters of `Serve`. Only then does it write. `Handle` compares the
  content type verbatim and returns the three sentinel errors. Its multipart
  branch parses the form the way net/http does, then runs the batch loop.
- **Format negotiation and encoding** (`headers.dfy`, `responses.dfy`). The
  Accept header is split on `,`. The first option that matches exactly
  decides the format. The format then picks the content type and the encoder.
- **Authentication** (`jwt.dfy`, `authorization.dfy`). The login decision
  table is modelled. The key getter releases the secret for HS256 only. The
  model also builds the claims of an issued token, turns a parsed token into
  a verdict, and prefers the `gfs-token` header over the `token` cookie.
- **Routes** (`server.dfy`). The `/`, `/login` and `/upload` handlers map the
  method, the authentication verdict, the read-login setting, the file
  system lookup and the upload result to a response. Every reply carries
  `gfs-version`.
- **Listings and file descriptors** (`listing.dfy`). These are built from a
  stat result and the entries `ReadDir` returns.
- **Client** (`client.dfy`, `interplay.dfy`). The model covers `urlJoin`,
  how the client reads login and upload replies, and the `UploadFiles` loop.
  It also composes the client's requests with the server model and states
  what the client concludes.

Two consequences of the code as written are stated as lemmas:

- A serve root without a trailing `/` lets an upload land in a sibling
  directory. `GoPath.SiblingEscape` shows this: `/srv/data` admits
  `../data2/x`.
- The server answers a stored octet-stream upload with 200 and an empty
  body. The client skips the body only for 202, so it tries to decode the
  empty body and reports an `EOF` error after every successful upload
  (`Interplay.SuccessfulUploadReportsEof`).

The multipart branch is never able to store anything:

- It runs only when the content type is exactly `multipart/form-data`. A
  header that carries the boundary parameter is refused as an unknown
  content type (`Upload.BoundaryParameterRefused`).
- net/http's `ParseMultipartForm` needs that boundary parameter. With the
  exact value it always fails with "no multipart boundary param in
  Content-Type" (`Upload.NoParameterNoForm`).
- So every form upload is answered 500 and changes nothing
  (`Server.MultipartUploadFails`). The part loop (`Upload.WriteBatch`) and
  the redirect that follow the parse are modelled by
  `Upload.MultipartUpload`, but no request reaches them.

Two mismatches inside the source are modelled as written:

- `server.go:175` calls `Handle` with two arguments, but `upload-handler.go:31`
  declares three. The third argument (the response format) is never used,
  so the model leaves it out.
- `FormatOctetStream` is used but never declared alongside the other
  formats. The model gives it the value `application/octet-stream`.

## Model

| member | source | states |
|---|---|---|
| GoStrings.JoinSplit | header-helpers.go:15 | joining the pieces of a split with the separator gives back the split string |
| GoStrings.SplitJoin | header-helpers.go:15 | splitting a join of separator-free pieces gives back the pieces |
| GoStrings.Split | header-helpers.go:15 | there is always at least one piece; no piece contains the separator; there is exactly one piece when the string has no separator |
| GoStrings.HasPrefixIff | upload-handler.go:89 | the prefix test passes exactly when the string is the prefix followed by something |
| GoPath.Clean | upload-handler.go:85 | the cleaned path is never empty and is rooted exactly when the input is; `""` cleans to `.`; a path with no segments left cleans to `/` or `.`; otherwise its pieces between `/` are exactly the input's resolved segments (after one leading empty piece when rooted), so no piece is empty or `.`, nothing trails, and `..` only leads an unrooted result |
| GoPath.Join | upload-handler.go:85 | the join is `""` exactly when both parts are empty; it is rooted exactly when its first non-empty part is; a non-empty join is already clean; it names the segments of `a + "/" + b` when `a` is non-empty, and those of `b` otherwise |
| GoPath.JoinIsCleanJoin | upload-handler.go:85 | the join is `Clean(a + "/" + b)` for a non-empty `a` and `Clean(b)` for an empty `a` and non-empty `b`, derived from the two contracts |
| GoPath.CleanIdempotent | upload-handler.go:85 | the cleaned output of a join is a normal form: cleaning it again changes nothing |
| GoPath.PrefixIsDescendant | upload-handler.go:85-91 | under a rooted serve root that ends in `/` and is otherwise clean, the prefix test passes exactly when the output's segments strictly extend the root's |
| GoPath.AcceptedRemainder | upload-handler.go:88-91 | under such a root, every accepted output is the root followed by a non-empty remainder whose segments are all plain (no `..`, no `.`, no empty segment) |
| GoPath.SiblingEscape | upload-handler.go:89 | under a root `/a/b` without a trailing slash, the filename `../bc/x` is accepted and lands in `/a/bc/x`, whose segments do not extend the root's |
| GoPath.DotRootRejectsAll | upload-handler.go:89 | a root beginning with `./` rejects every filename, since a cleaned path never begins with `./` |
| GoPath.SlashRootAcceptsAll | upload-handler.go:89 | the root `/` accepts every filename |
| GoPath.JoinChild | io-helpers.go:54 | joining a plain name onto a rooted path gives that path's segments plus the name |
| Formats.DefaultServePathIsCleanRoot | configs_unix.go:7 | the default serve root `/var/gfs/storage/` is rooted, ends in `/` and is otherwise clean |
| Headers.OptionFormat | header-helpers.go:18-29 | one option maps to HTML only when it is exactly `text/html`; to JSON only for `application/json` or `text/json`; to XML only for `application/xml` or `text/xml`; otherwise to nothing |
| Headers.FirstRecognisedIndex | header-helpers.go:17-30 | the index returned holds a recognised option, and every option before it is unrecognised |
| Headers.GetResponseFormat | header-helpers.go:9-35 | an empty header gives `""`; the result is one of `""`, HTML, JSON or XML; it is `""` exactly when no option is recognised; otherwise it is the format of the first recognised option |
| Headers.SkipUnrecognised | header-helpers.go:17-30 | an unrecognised leading option is skipped, and negotiation continues with the rest of the header |
| Headers.SingleOption | header-helpers.go:15-30 | a header holding one option negotiates exactly that option's format |
| Headers.LeadingSpaceHides | header-helpers.go:18 | options are not trimmed: an option with a leading space is never recognised |
| Headers.ParameterHides | header-helpers.go:18 | parameters are not stripped: an option containing `;` is never recognised |
| Headers.GetContentType | header-helpers.go:37-39 | the value the upload dispatch compares is the Content-Type header verbatim, parameters included |
| Responses.ContentTypeFor | response-handler.go:18-33 | JSON and XML are chosen by exact match; every other format, `""` included, gives `text/html` |
| Responses.WriteResponse | response-handler.go:16-35 | one document is written with the caller's status and payload and exactly one content type; the encoder is JSON, XML or the caller's HTML template, matching that content type |
| Jwt.KeyFor | jwt.go:17-28 | the secret is released exactly for HS256; every other method, HMAC or not, is refused with an "Unexpected signing method" error |
| Jwt.Parse | jwt.go:31-34 | parsing succeeds exactly when the token decodes, names HS256, verifies under the secret and has claims the clock admits; the result is then a valid map-claims token |
| Jwt.TokenData | jwt.go:30-47 | a parse error is returned; a valid map token with no `sub` is an error; a non-string `sub` panics; a string `sub` is accepted exactly when it unmarshals; any other parsed token falls through to the nil error |
| Jwt.GetTokenData | jwt.go:30-47 | a decoding error is returned as it is; a method other than HS256 is refused with "Unexpected signing method"; a panic happens only for a decoded token whose `sub` is present and not a string |
| Jwt.ParseNeverFallsThrough | jwt.go:36-46 | every successful parse is a valid map-claims token, so the fall-through branch is unreachable |
| Jwt.AcceptedIff | jwt.go:30-47 | a token is accepted exactly when it decodes with HS256, verifies under the secret, has claims the clock admits, and has a string `sub` that unmarshals |
| Jwt.UnixSeconds | jwt.go:52-53 | `Unix()` is the whole second that brackets the reading, rounded down |
| Jwt.UnixSecondsShift | jwt.go:50-52 | adding 31 days of nanoseconds adds 2678400 to the Unix time |
| Jwt.IssueClaims | jwt.go:50-56 | the subject is `{}` and the id is the fresh UUID; ExpiresAt is the first reading's Unix time plus 2678400; IssuedAt comes from the second reading; ExpiresAt − IssuedAt ≤ 2678400 when the second reading is not earlier |
| Jwt.ClaimsOf | jwt.go:51-56 | the claim map holds only `exp`, `jti`, `iat` and `sub`; each is present exactly when its field is non-zero or non-empty, and then carries that field's value |
| Jwt.GetToken | jwt.go:49-61 | the token is what the library's HS256 signing under the secret gives for claims holding only `sub` = the string `{}`, `jti` = the fresh id, `exp` = the first reading's Unix time plus 31 days and `iat` = the second reading's Unix time, each of the last three left out when empty or zero |
| Jwt.IssuedTokenAccepted | jwt.go:49-61 | a token the server signs with HS256 passes its own check, given a library that decodes what it signs and a clock that admits the claims |
| Authorization.Submission | authorization-handler.go:50-74 | only form, JSON and XML bodies are read; any other content type is an error naming it; only the form supplies a redirect path |
| Authorization.SessionCookie | authorization-handler.go:97-103 | the cookie is `token` with Path `/` and MaxAge 2678400; it expires 31 days after the reading |
| Authorization.Login | authorization-handler.go:47-112 | an error is returned, with nothing written, exactly when the credentials cannot be read; a token document is answered 200 and only for JSON or XML; a redirect goes to the submitted path and carries the token cookie |
| Authorization.LoginSucceedsIff | authorization-handler.go:76-109 | a login answers with a token or a cookie exactly when the username matches, bcrypt reports a match and signing succeeds |
| Authorization.UsernameMismatchSkipsPasswordCheck | authorization-handler.go:110-111 | a wrong username gets 400 "Invalid username or password" whatever the password checker would say |
| Authorization.MismatchesIndistinguishable | authorization-handler.go:82-84 | a wrong password and a wrong username get the same 400 answer |
| Authorization.InternalErrorsCarryText | authorization-handler.go:77-90 | bcrypt and signing errors are answered 500 with the error's own text |
| Authorization.RedirectPathOnlyFromForm | authorization-handler.go:52-71 | a non-form login never redirects to, or echoes, a non-empty path |
| Authorization.BrowserLoginCookie | authorization-handler.go:96-106 | a successful browser login sets the 31-day token cookie and redirects to the unvalidated `redirectTo` |
| Authorization.PresentedToken | authorization-handler.go:116-124 | a non-empty `gfs-token` header wins over the `token` cookie; with neither there is an error |
| Authorization.CheckAuthenticated | authorization-handler.go:115-128 | a non-empty header token is the one checked; otherwise the `token` cookie is checked; with neither, the request is rejected with the missing-cookie error |
| Authorization.AuthenticatedMeansSigned | authorization-handler.go:126-127 | an authenticated request presented a token that decodes with HS256 and verifies under the configured secret |
| Authorization.HeaderBeforeCookie | authorization-handler.go:115-128 | with a header token the cookies play no part |
| Authorization.LoginTokenAuthenticates | authorization-handler.go:87-95 | a token obtained from a JSON or XML login authenticates later requests that send it in the header |
| Upload.IsUploadClientError | upload-handler.go:25-29 | true exactly for the three sentinel errors |
| Upload.UploadFile | upload-handler.go:84-106 | `ErrNoUploadingUp` exactly when the join lacks the root as a prefix, and then nothing changes; success exactly when the prefix holds and no I/O fault occurs, and then the content is stored at the join; no other path changes |
| Upload.FaultedWrite | upload-handler.go:93-105 | past the containment test, a failing file system gives the fault's own error; a failed `MkdirAll` or `Create` changes nothing; a failed copy leaves the bytes copied so far |
| Upload.LastWriteWins | upload-handler.go:98-105 | writing a name twice keeps only the second content |
| Upload.WritePart | upload-handler.go:50-60 | an open failure is returned before any write; otherwise the part is written to the upload path joined with its own name |
| Upload.WriteBatch | upload-handler.go:49-64 | parts are written in order; the batch succeeds exactly when every part does, and then equals storing them all in order; otherwise the first failing part's error is returned over the earlier writes, which are not rolled back |
| Upload.BatchLastWriteWins | upload-handler.go:49-64 | within a batch, a later part with the same name overwrites an earlier one |
| Upload.ParseMultipartForm | upload-handler.go:38-41 | the form parses only when the media type is `multipart/form-data` and a `boundary` parameter is present; otherwise it fails with net/http's not-multipart or missing-boundary error |
| Upload.NoParameterNoForm | upload-handler.go:34-41 | a content type without parameters never parses; the exact value the handler dispatches on fails with the missing-boundary error |
| Upload.MultipartUpload | upload-handler.go:43-68 | past the parse, a parse error is returned unchanged; a redirect to the form's `path` happens exactly when the parse succeeded and the whole batch was written, and the store then holds every part in order |
| Upload.Handle | upload-handler.go:31-82 | an unknown content type gives `ErrUnknownContentType` and an octet stream without `filename` gives `ErrNoFilenameProvided`, both with no change; the multipart branch always fails with the missing-boundary error and no change; an octet stream is stored through `uploadFile` under the file system's fault, if any; nothing is ever written to the client; every changed path passed the containment test |
| Upload.FaultedStreamFails | upload-handler.go:69-105 | an octet stream that passes the containment test on a failing file system is refused with the file system's error, and the store is as the failed write left it |
| Upload.MultipartNeverStores | upload-handler.go:34-41 | a multipart request changes nothing, writes nothing and fails with an error that is not a client error |
| Upload.NoFilesStillRedirects | upload-handler.go:43-66 | past a successful parse, a form without `uploadfiles` writes nothing and still redirects |
| Upload.BoundaryParameterRefused | upload-handler.go:33-34 | `multipart/form-data; boundary=…` is refused as an unknown content type |
| Upload.UploadsStayUnderCleanRoot | upload-handler.go:88-91 | under a clean directory root, every path an upload changes is the root plus plain segments |
| Listing.IsDirectory | io-helpers.go:10-17 | the stat error if there is one, otherwise the directory flag |
| Listing.Entries | io-helpers.go:50-65 | one entry per `ReadDir` result, in order: its name, its path as the listing path joined with the name, its directory flag and time; size 0 for directories and the file size otherwise |
| Listing.GetDirectoryStats | io-helpers.go:20-68 | succeeds exactly for a directory that lists; named `/` at the root and by its base name elsewhere; the path is the logical path; `authorized` stays false |
| Listing.EntriesAreChildren | io-helpers.go:54 | each entry with a plain name sits directly below the listed path |
| Listing.GetFileStats | file-response-handler.go:96-109 | base name, logical path, size and time from the stat, or the stat error |
| Listing.HandleFile | file-response-handler.go:72-93 | format `""` streams the raw bytes and writes no document; any other format writes a 200 file descriptor in the negotiated content type, with the encoder for that type (the file page for HTML); an open or stat error is returned before anything is written |
| Listing.FileDescriptorFromStat | file-response-handler.go:83-108 | a file asked for in a document format is described by its own stat: the stat's base name, size and time under the logical path, written with 200 in the negotiated format |
| Server.ServePath | server.go:84-111 | a missing path gives 404 with the logical path; other stat errors give 500; a directory that lists is answered 200 with its listing, carrying the authentication result, in the negotiated format; a failed listing writes 500 and then crashes; a file goes to the file handler |
| Server.ServeRoot | server.go:68-115 | non-GET gets 405; a GET is always authenticated; with the read-login setting an unauthenticated GET gets 401 before any lookup |
| Server.UploadPost | server.go:166-183 | an unauthenticated upload gets 401 with the token check's error text and nothing changes; `ErrNoUploadingUp` gets 400; every other upload error gets 500 |
| Server.Serve | server.go:119-190 | every reply carries `gfs-version`; `/login` and `/upload` pass non-POST requests to the `/` handler |
| Server.RouteFor | server.go:24-36 | `/login` and `/upload` go to their own handlers and every other path to the `/` handler |
| Server.ReadRefusedBeforeLookup | server.go:72-82 | with the read-login setting, an unauthenticated GET gets 401 whatever the file system holds |
| Server.UploadAlwaysRequiresLogin | server.go:169-173 | the upload route refuses an unauthenticated POST with 401 whatever the read-login setting |
| Server.UploadStatus | server.go:175-182 | for an authenticated upload the status is 400 exactly for `ErrNoUploadingUp`, 500 exactly for other errors, and 200 on success |
| Server.MultipartUploadFails | server.go:175-181 | an authenticated form upload is answered 500 with the missing-boundary error, and the store is unchanged |
| Server.UploadServerErrorReply | server.go:175-182 | an authenticated upload whose handler fails with a non-sentinel error is answered 500 with that error's text, and the store is what the handler left |
| Server.NeverAccepted | server.go:164-186 | no route ever answers 202 |
| Server.AuthenticatedUploadNeverAccepted | server.go:175-182 | an authenticated upload POST is answered 200, 400 or 500 |
| Server.OnlyUploadsWrite | server.go:164-186 | only an authenticated upload POST changes the store |
| Server.ListingReportsAuthentication | server.go:98-104 | a listing's `authorized` flag equals the authentication verdict |
| Server.DirectoryIsListed | server.go:68-104 | a permitted GET of a directory that lists is answered 200 with that listing, its entries as `ReadDir` gives them and its `authorized` flag set to the verdict |
| Client.UrlJoin | client.go:21-31 | the result starts with `p1` and ends with `p2` minus one leading `/`; when `p1` lacks a trailing `/`, the character after it is `/`; its length is `|p1|` plus one if `p1` lacks a trailing `/`, plus `|p2|`, minus one if `p2` has a leading `/` |
| Client.UrlJoinCleansToJoin | client.go:199 | cleaning the client's join of a non-empty `p1` gives the server's `path.Join` of the same parts |
| Client.Login | client.go:49-96 | a transport error is reported and the token kept; any error keeps the token; the login succeeds exactly when the reply decodes as JSON with an empty error and a non-empty token, and that token is then stored |
| Client.LoginRequest | client.go:49-71 | the login request posts JSON credentials to `/login` and asks for JSON |
| Client.InterpretLogin | client.go:79-95 | the token is stored exactly when the reply decodes with an empty error and a non-empty token; otherwise the old token is kept and the error reported |
| Client.UploadRequest | client.go:189-202 | the upload request is an octet stream whose `filename` query is `urlJoin(UploadPath, Filename)`, sent with the stored token |
| Client.InterpretUpload | client.go:210-222 | 202 is success without reading the body; any other status fails only on a decode error or a non-empty `error` |
| Client.JsonBody | client.go:79-83 | only a JSON document decodes; an empty body fails with `EOF` |
| Client.Deliver | client.go:204-207 | a handler panic reaches the client as a transport error and no reply; any other reply arrives as it was written |
| Client.Upload | client.go:182-223 | a transport error is reported as it is; a 202 reply is success whatever its body; any other reply fails with the decode error when the body is not JSON, fails with the `error` field when it is non-empty, and succeeds otherwise |
| Client.UploadFiles | client.go:171-180 | no more files are attempted than given; every file before the last one attempted uploaded; a failure is the upload error of the last file attempted; success means every file was attempted |
| Client.UploadEach | client.go:172-177 | files are tried in order; every file before the last one attempted succeeded; the first failure is returned and ends the loop |
| Client.UploadEachSucceedsIff | client.go:171-180 | the loop succeeds exactly when every file uploads |
| Client.UploadFilesSucceedsIff | client.go:171-180 | with the real upload of each file as the step, the batch succeeds exactly when every file uploads |
| Interplay.JsonLoginRoundTrip | client.go:49-95 | against the server, the client stores the issued token exactly when the login succeeds; wrong credentials reach the client as "Invalid username or password" and leave its token unchanged |
| Interplay.SuccessfulUploadReportsEof | client.go:210-222 | when the file system does not fail, a stored upload is answered 200 with an empty body, which the client reports as an `EOF` error |
| Interplay.EscapingUploadReportsRefusal | server.go:177-179 | an upload leaving the serve root reaches the client as a 400 with the server's refusal text, and nothing is stored |
| Interplay.FailedWriteReply | upload-handler.go:93-105 | when the file system fails to create the directories or the file, or to copy, an under-root client upload is answered 500 in JSON with the file system's error text; nothing is stored unless a copy failed part-way |
| Interplay.FailedWriteReportsError | client.go:204-222 | over the wire, that failure reaches the client as the file system's error text, or as success if that text is empty |
| Interplay.PanicReachesClientAsTransportError | client.go:204-207 | a token check that panics on an upload leaves the client with the transport's error |

## Left out

- HTTP serving and transport are not modelled: `RunServer`, `ListenAndServe` and the client's `http.Client.Do`. Requests and responses are values, and the client's transport is a function parameter. `Interplay.Wire` connects the client to the server model.
- Client.Deliver: the text of the transport error for a connection closed without a reply is a parameter. Its wording depends on the Go version and includes the URL.
- Client.Deliver: net/http buffers 2048 bytes of a response before sending anything. An error page over that size, written before a panic, would be partly sent. The model treats every panic as sending nothing, which holds for the short error page that the failed-listing path writes.
- The parts of a multipart form still carry their own open and write faults (`FilePart`). No request reaches that code (`Upload.NoParameterNoForm`), so those faults were not moved to the server's environment.
- JWT internals are not modelled: segment decoding, base64, HMAC and the validation of `exp`, `iat` and `nbf`. They are the functions of `Jwt.JwtLibrary`. Signing and the fresh UUID are inputs.
- bcrypt (`CheckPassword`, `CreatePassword`) is a function parameter of the login environment.
- The real file system is not modelled. The read path sees stat, `ReadDir` and file contents as functions, so `ReadDir`'s sort order is whatever the input gives. The upload store is a map from output path to content. The directories `MkdirAll` creates are not tracked, and how the file system fails a write is an input of the server (`Server.ServerEnv.writeFault`).
- Concurrency is not modelled. This includes a path that changes between the directory test and the listing, and concurrent writes.
- HTML templates and the JSON/XML encoders are not modelled. A document is its status, content type, encoder kind and payload. Encoding errors, which the handlers only log, do not occur.
- The error-handler wrappers (client error, not found, internal server error) are modelled as the status and document they write.
- Configuration persistence, flag parsing, the update checker and the build script are outside the request pipeline.
- `http.Redirect`'s rewriting of relative locations is not modelled; the location is the raw path.
- Following redirects is not modelled; `JsonBody` treats a redirect reply as a decode failure. The client's other helpers (`getContent`, `NewClient`, `NewUploadFileFromDisk`, `getUrl`) are not modelled.
- Strings are sequences of Unicode scalar values, while Go's `path.Clean`, `strings.HasPrefix` and `strings.Split` work on bytes. Filenames carrying invalid UTF-8, which a query parameter can hold, are outside the model.
- Upload.ParseMultipartForm: `mime.ParseMediaType` is reduced to cutting at the first `;` and finding a parameter that starts with `boundary=` after leading spaces. Case folding, quoting and malformed parameters are not modelled. This does not matter for `Handle`, whose multipart branch only ever sees the exact value without parameters.
- Upload.NoFilesStillRedirects: states what upload-handler.go:43-66 does after a successful parse. The exact content-type comparison means no request gets there (`Upload.NoParameterNoForm`), so the source never shows this redirect.
- Jwt.KeyFor: the error names the method's `alg` string; the source prints the method value for an HMAC method other than HS256.
- Listing.HandleFile: a copy error after part of the file has been streamed is modelled as an error with nothing streamed.
- Listing.GetDirectoryStats: the error for a failed stat is the error's message without the path prefix the operating system adds.
- The test file for the I/O helpers expects a listing path that differs from what the code sets. The model follows the code: the path is the logical path.

=== FILE: authorization.dfy ===
/** The login route's decision table and the check every protected request
    goes through. Password hashing and the JWT library are parameters; the
    clock readings a login makes are given as integers. */
module Authorization {
  import opened Outcomes
  import opened Formats
  import opened Http
  import opened Settings
  import Responses
  import Headers
  import Jwt

  /** What a login needs from outside: bcrypt's comparison (Ok(true) on a
      match, Ok(false) on a mismatch, Err on a malformed hash), the JWT
      library, the three clock readings in nanoseconds (token expiry, token
      issue time, cookie expiry) and the fresh token id. */
  datatype AuthEnv = AuthEnv(
    checkPassword: (string, string) -> Result<bool, string>,
    lib: Jwt.JwtLibrary,
    expiryNs: int,
    issueNs: int,
    cookieNs: int,
    tokenId: string)

  /** The credentials a login request carries, and where to send the user
      afterwards. */
  datatype Submitted = Submitted(username: string, password: string, redirectPath: string)

  /** What `Login` writes and the error it returns. */
  datatype LoginResult = LoginResult(written: Response, err: Option<string>)

  const InvalidCredentials: string := "Invalid username or password"

  /** The name of the session cookie. */
  const TokenCookie: string := "token"

  function UnknownFormatMessage(contentType: string): string {
    "Unknown request format '" + contentType + "'. Accepted types are: '"
      + FormatXFormUrlEncoded + "', '" + FormatJson + "' and '" + FormatXml + "'"
  }

  /** The credentials read from the body the content type names: form
      fields (the only source of a redirect path), a JSON or an XML document.
      Any other content type, or a body that does not decode, is an error. */
  function Submission(req: Request): (r: Result<Submitted, string>)
    ensures r.Ok? <==>
      || req.contentType == FormatXFormUrlEncoded
      || (req.contentType == FormatJson && req.body.jsonLogin.Ok?)
      || (req.contentType == FormatXml && req.body.xmlLogin.Ok?)
    ensures r.Ok? && req.contentType != FormatXFormUrlEncoded ==> r.value.redirectPath == ""
    ensures req.contentType == FormatXFormUrlEncoded ==>
      r == Ok(Submitted(FormValue(req, "username"), FormValue(req, "password"), FormValue(req, "redirectTo")))
    ensures req.contentType !in {FormatXFormUrlEncoded, FormatJson, FormatXml} ==>
      r == Err(UnknownFormatMessage(req.contentType))
  {
    var ct := Headers.GetContentType(req);
    if ct == FormatXFormUrlEncoded then
      Ok(Submitted(FormValue(req, "username"), FormValue(req, "password"), FormValue(req, "redirectTo")))
    else if ct == FormatJson then
      match req.body.jsonLogin
      case Ok(c) => Ok(Submitted(c.username, c.password, ""))
      case Err(e) => Err(e)
    else if ct == FormatXml then
      match req.body.xmlLogin
      case Ok(c) => Ok(Submitted(c.username, c.password, ""))
      case Err(e) => Err(e)
    else Err(UnknownFormatMessage(ct))
  }

  /** The failure page, with the status and message given. */
  function Failed(status: int, format: string, redirectPath: string, msg: string): Response {
    Responses.WriteResponse(status, LoginFailedPage, format, LoginFailedDoc(redirectPath, msg))
  }

  /** The session cookie set on a browser login: valid for thirty-one days
      both by Max-Age and by its expiry time. */
  function SessionCookie(token: string, nowNs: int): (c: Cookie)
    ensures c.name == TokenCookie && c.value == token && c.path == "/"
    ensures c.maxAge == 2678400 && c.maxAge == Jwt.TokenLifetimeSeconds
    ensures c.expiresNs - nowNs == c.maxAge * Jwt.NanosPerSecond
  {
    Cookie(TokenCookie, token, "/", 31 * 24 * 60 * 60, nowNs + Jwt.TokenLifetimeNanos)
  }

  /** `Login`: read the credentials; compare the username, then the password;
      issue a token; answer API clients with the token and browsers with a
      cookie and a redirect. */
  function Login(config: Config, req: Request, format: string, env: AuthEnv): (r: LoginResult)
    ensures r.err.Some? <==> Submission(req).Err?
    ensures r.err.Some? ==> r.written == Nothing
    ensures r.written.Document? && r.written.payload.TokenDoc? ==>
      r.written.status == StatusOK && (format == FormatJson || format == FormatXml)
    ensures r.written.Redirect? ==>
      && format != FormatJson && format != FormatXml
      && r.written.location == Submission(req).value.redirectPath
      && r.written.cookie.Some? && r.written.cookie.value.name == TokenCookie
  {
    match Submission(req)
    case Err(e) => LoginResult(Nothing, Some(e))
    case Ok(s) =>
      if config.username == s.username then
        match env.checkPassword(s.password, config.passwordHash)
        case Err(e) => LoginResult(Failed(StatusInternalServerError, format, s.redirectPath, e), None)
        case Ok(matches) =>
          if !matches then LoginResult(Failed(StatusBadRequest, format, s.redirectPath, InvalidCredentials), None)
          else
            match Jwt.GetToken(config.secret, env.expiryNs, env.issueNs, env.tokenId, env.lib)
            case Err(e) => LoginResult(Failed(StatusInternalServerError, format, s.redirectPath, e), None)
            case Ok(token) =>
              if format == FormatXml || format == FormatJson then
                LoginResult(Responses.WriteResponse(StatusOK, NoTemplate, format, TokenDoc(token)), None)
              else
                LoginResult(Redirect(s.redirectPath, Some(SessionCookie(token, env.cookieNs))), None)
      else LoginResult(Failed(StatusBadRequest, format, s.redirectPath, InvalidCredentials), None)
  }

  /** A login succeeds (a token document or a cookie with a redirect) exactly
      when the credentials decode, the username matches, bcrypt reports a
      match and the token is signed. */
  lemma LoginSucceedsIff(config: Config, req: Request, format: string, env: AuthEnv)
    ensures var w := Login(config, req, format, env).written;
      (w.Redirect? || (w.Document? && w.payload.TokenDoc?)) <==>
      && Submission(req).Ok?
      && Submission(req).value.username == config.username
      && env.checkPassword(Submission(req).value.password, config.passwordHash) == Ok(true)
      && Jwt.GetToken(config.secret, env.expiryNs, env.issueNs, env.tokenId, env.lib).Ok?
  {
  }

  /** A wrong username is answered 400 without consulting bcrypt: any other
      password checker gives the same answer. */
  lemma UsernameMismatchSkipsPasswordCheck(config: Config, req: Request, format: string, env: AuthEnv,
                                           other: (string, string) -> Result<bool, string>)
    requires Submission(req).Ok? && Submission(req).value.username != config.username
    ensures Login(config, req, format, env) == Login(config, req, format, env.(checkPassword := other))
    ensures Login(config, req, format, env).written
      == Failed(StatusBadRequest, format, Submission(req).value.redirectPath, InvalidCredentials)
  {
  }

  /** A wrong password and a wrong username produce the same answer, so a
      caller cannot tell which of the two was wrong. */
  lemma MismatchesIndistinguishable(config: Config, wrongUser: Request, wrongPassword: Request, format: string, env: AuthEnv)
    requires Submission(wrongUser).Ok? && Submission(wrongPassword).Ok?
    requires Submission(wrongUser).value.redirectPath == Submission(wrongPassword).value.redirectPath
    requires Submission(wrongUser).value.username != config.username
    requires Submission(wrongPassword).value.username == config.username
    requires env.checkPassword(Submission(wrongPassword).value.password, config.passwordHash) == Ok(false)
    ensures Login(config, wrongUser, format, env) == Login(config, wrongPassword, format, env)
    ensures StatusOf(Login(config, wrongUser, format, env).written) == StatusBadRequest
  {
  }

  /** bcrypt and signing errors are answered 500 with the error's own text. */
  lemma InternalErrorsCarryText(config: Config, req: Request, format: string, env: AuthEnv)
    requires Submission(req).Ok? && Submission(req).value.username == config.username
    ensures var s := Submission(req).value;
      env.checkPassword(s.password, config.passwordHash).Err? ==>
        Login(config, req, format, env).written
          == Failed(StatusInternalServerError, format, s.redirectPath, env.checkPassword(s.password, config.passwordHash).error)
    ensures var s := Submission(req).value;
      var token := Jwt.GetToken(config.secret, env.expiryNs, env.issueNs, env.tokenId, env.lib);
      env.checkPassword(s.password, config.passwordHash) == Ok(true) && token.Err? ==>
        Login(config, req, format, env).written
          == Failed(StatusInternalServerError, format, s.redirectPath, token.error)
  {
  }

  /** A JSON or XML login never redirects anywhere and never echoes a
      redirect path: only the form field `redirectTo` can supply one. */
  lemma RedirectPathOnlyFromForm(config: Config, req: Request, format: string, env: AuthEnv)
    requires req.contentType != FormatXFormUrlEncoded
    ensures var w := Login(config, req, format, env).written;
      && (w.Redirect? ==> w.location == "")
      && (w.Document? && w.payload.LoginFailedDoc? ==> w.payload.redirectPath == "")
  {
  }

  /** A successful browser login sets the session cookie on the path "/" for
      thirty-one days and redirects to the unvalidated `redirectTo` field. */
  lemma BrowserLoginCookie(config: Config, req: Request, format: string, env: AuthEnv)
    requires Login(config, req, format, env).written.Redirect?
    ensures var w := Login(config, req, format, env).written;
      && w.location == Submission(req).value.redirectPath
      && w.cookie == Some(SessionCookie(
           Jwt.GetToken(config.secret, env.expiryNs, env.issueNs, env.tokenId, env.lib).value, env.cookieNs))
  {
  }

  /** The token a request presents: a non-empty `gfs-token` header wins,
      otherwise the `token` cookie, otherwise there is none. */
  function PresentedToken(req: Request): (r: Result<string, string>)
    ensures req.gfsToken != "" ==> r == Ok(req.gfsToken)
    ensures req.gfsToken == "" && TokenCookie in req.cookies ==> r == Ok(req.cookies[TokenCookie])
    ensures r.Err? <==> req.gfsToken == "" && TokenCookie !in req.cookies
  {
    if req.gfsToken != "" then Ok(req.gfsToken)
    else if TokenCookie in req.cookies then Ok(req.cookies[TokenCookie])
    else Err("http: named cookie not present")
  }

  /** `CheckAuthenticated`: the presented token checked against the
      configured secret, with an empty struct as the subject's target. */
  function CheckAuthenticated(config: Config, req: Request, lib: Jwt.JwtLibrary, unmarshal: string -> Option<string>): (v: Jwt.Verdict)
    ensures req.gfsToken == "" && TokenCookie !in req.cookies ==> v == Jwt.Rejected("http: named cookie not present")
    ensures req.gfsToken != "" ==> v == Jwt.GetTokenData(req.gfsToken, config.secret, lib, unmarshal)
    ensures req.gfsToken == "" && TokenCookie in req.cookies ==>
      v == Jwt.GetTokenData(req.cookies[TokenCookie], config.secret, lib, unmarshal)
  {
    match PresentedToken(req)
    case Err(e) => Jwt.Rejected(e)
    case Ok(token) => Jwt.GetTokenData(token, config.secret, lib, unmarshal)
  }

  /** A request is authenticated only by a token that the library decodes
      with HS256 and whose signature verifies under the configured secret. */
  lemma AuthenticatedMeansSigned(config: Config, req: Request, lib: Jwt.JwtLibrary, unmarshal: string -> Option<string>)
    ensures CheckAuthenticated(config, req, lib, unmarshal) == Jwt.Accepted ==>
      && PresentedToken(req).Ok?
      && var t := lib.decode(PresentedToken(req).value);
      && t.Ok?
      && t.value.signingMethod == Jwt.HS256
      && lib.verify(Jwt.HS256, t.value.signingInput, t.value.signature, config.secret)
  {
    if CheckAuthenticated(config, req, lib, unmarshal) == Jwt.Accepted {
      Jwt.AcceptedIff(PresentedToken(req).value, config.secret, lib, unmarshal);
    }
  }

  /** When the header carries a token, cookies play no part: a request with
      any other cookies gets the same verdict. */
  lemma HeaderBeforeCookie(config: Config, req: Request, cookies: map<string, string>, lib: Jwt.JwtLibrary, unmarshal: string -> Option<string>)
    requires req.gfsToken != ""
    ensures CheckAuthenticated(config, req, lib, unmarshal)
      == CheckAuthenticated(config, req.(cookies := cookies), lib, unmarshal)
    ensures CheckAuthenticated(config, req, lib, unmarshal)
      == Jwt.GetTokenData(req.gfsToken, config.secret, lib, unmarshal)
  {
  }

  /** A token obtained from a login is accepted on later requests that
      present it in the header, as long as the clock admits its claims. */
  lemma LoginTokenAuthenticates(config: Config, login: Request, format: string, env: AuthEnv,
                                later: Request, unmarshal: string -> Option<string>)
    requires Jwt.DecodesWhatItSigns(env.lib)
    requires var w := Login(config, login, format, env).written;
      w.Document? && w.payload.TokenDoc?
    requires later.gfsToken == Login(config, login, format, env).written.payload.token
    requires later.gfsToken != ""
    requires env.lib.claimsError(Jwt.ClaimsOf(Jwt.IssueClaims(env.expiryNs, env.issueNs, env.tokenId))).None?
    requires unmarshal("{}").None?
    ensures CheckAuthenticated(config, later, env.lib, unmarshal) == Jwt.Accepted
  {
    LoginSucceedsIff(config, login, format, env);
    Jwt.IssuedTokenAccepted(config.secret, env.expiryNs, env.issueNs, env.tokenId, env.lib, unmarshal);
  }
}

=== FILE: client.dfy ===
/** The Go client: joining upload paths, interpreting login and upload
    replies, and uploading a list of files. The transport is a parameter: a
    function from the request sent to the server's response or a transport
    error. */
module Client {
  import opened Outcomes
  import opened Formats
  import opened Http
  import GoStrings
  import GoPath

  /** `urlJoin`: exactly one '/' between the two parts, supplied when `p1`
      lacks a trailing one, and one leading '/' of `p2` dropped. */
  function UrlJoin(p1: string, p2: string): (r: string)
    ensures GoStrings.HasPrefix(r, p1)
    ensures |r| == |p1| + (if GoStrings.HasSuffix(p1, "/") then 0 else 1)
                 + |p2| - (if GoStrings.HasPrefix(p2, "/") then 1 else 0)
    ensures !GoStrings.HasSuffix(p1, "/") ==> r[|p1|] == '/'
    ensures GoStrings.HasPrefix(p2, "/") ==> GoStrings.HasSuffix(r, p2[1..])
    ensures !GoStrings.HasPrefix(p2, "/") ==> GoStrings.HasSuffix(r, p2)
    ensures r != ""
  {
    var a := if !GoStrings.HasSuffix(p1, "/") then p1 + "/" else p1;
    var b := if GoStrings.HasPrefix(p2, "/") then p2[1..] else p2;
    assert (a + b)[..|p1|] == p1;
    assert !GoStrings.HasSuffix(p1, "/") ==> (a + b)[|p1|] == a[|p1|] == '/';
    assert (a + b)[|a + b| - |b|..] == b;
    a + b
  }

  /** One extra empty segment changes nothing once resolved. */
  lemma ResolveDropsEmpty(rooted: bool, xs: seq<string>, ys: seq<string>)
    requires forall i :: 0 <= i < |xs| ==> '/' !in xs[i]
    requires forall i :: 0 <= i < |ys| ==> '/' !in ys[i]
    ensures GoPath.Resolve(rooted, [], xs + [""] + ys) == GoPath.Resolve(rooted, [], xs + ys)
  {
    assert xs + [""] + ys == xs + ([""] + ys);
    GoPath.ResolveAppend(rooted, [], xs, [""] + ys);
    GoPath.ResolveAppend(rooted, [], xs, ys);
    assert ([""] + ys)[1..] == ys;
  }

  /** `a + "/" + b` and `a + "/" + "/" + b` have the same segments. */
  lemma DoubleSlash(a: string, b: string)
    requires a != ""
    ensures GoPath.Segments(a + "/" + ("/" + b)) == GoPath.Segments(a + "/" + b)
    ensures GoPath.IsRooted(a + "/" + ("/" + b)) == GoPath.IsRooted(a + "/" + b)
  {
    var x := a + "/" + ("/" + b);
    var y := a + "/" + b;
    assert x == a + ['/'] + ("/" + b);
    assert y == a + ['/'] + b;
    GoStrings.SplitConcat(a, "/" + b, '/');
    GoStrings.SplitConcat(a, b, '/');
    GoPath.SplitRooted(b);
    var sa := GoStrings.Split(a, '/');
    var sb := GoStrings.Split(b, '/');
    assert GoStrings.Split(x, '/') == sa + [""] + sb;
    ResolveDropsEmpty(GoPath.IsRooted(a), sa, sb);
    assert x[0] == a[0] && y[0] == a[0];
  }

  /** The client's `urlJoin` and the server's `path.Join` name the same
      place: cleaning the client's result gives the server's join. */
  lemma UrlJoinCleansToJoin(p1: string, p2: string)
    requires p1 != ""
    ensures GoPath.Clean(UrlJoin(p1, p2)) == GoPath.Join(p1, p2)
  {
    var u := UrlJoin(p1, p2);
    var x := p1 + "/" + p2;
    UrlJoinSegments(p1, p2);
    assert u != "" && x != "";
  }

  /** The client's join and the plain `p1 + "/" + p2` have the same
      segments and are rooted alike. */
  lemma UrlJoinSegments(p1: string, p2: string)
    requires p1 != ""
    ensures GoPath.Segments(UrlJoin(p1, p2)) == GoPath.Segments(p1 + "/" + p2)
    ensures GoPath.IsRooted(UrlJoin(p1, p2)) == GoPath.IsRooted(p1 + "/" + p2)
  {
    var u := UrlJoin(p1, p2);
    var x := p1 + "/" + p2;
    var endsSlash := GoStrings.HasSuffix(p1, "/");
    var startsSlash := GoStrings.HasPrefix(p2, "/");
    var a0 := if endsSlash then p1[..|p1| - 1] else p1;
    var b0 := if startsSlash then p2[1..] else p2;
    assert u == a0 + "/" + b0;
    if endsSlash {
      assert p1 == a0 + "/";
    }
    if startsSlash {
      assert p2 == "/" + b0;
    }
    if endsSlash && startsSlash {
      if a0 == "" {
        assert x == "/" + "/" + ("/" + b0);
        assert u == "/" + b0;
        DoubleSlash("/", "/" + b0);
        DoubleSlash("/", b0);
        assert x == "/" + "/" + ("/" + b0);
        SlashCollapse(b0);
      } else {
        assert x == a0 + "/" + ("/" + ("/" + b0));
        DoubleSlash(a0, "/" + b0);
        DoubleSlash(a0, b0);
      }
    } else if endsSlash {
      if a0 == "" {
        assert x == "/" + "/" + b0;
        assert u == "/" + b0;
        SlashCollapse(b0);
      } else {
        assert x == a0 + "/" + ("/" + b0);
        DoubleSlash(a0, b0);
      }
    } else if startsSlash {
      assert x == p1 + "/" + ("/" + b0);
      DoubleSlash(p1, b0);
    }
    assert x[0] == p1[0];
  }

  /** A leading "//" cleans like a leading "/". */
  lemma SlashCollapse(b: string)
    ensures GoPath.Segments("/" + "/" + b) == GoPath.Segments("/" + b)
    ensures GoPath.Segments("/" + "/" + ("/" + b)) == GoPath.Segments("/" + b)
  {
    ExtraLeadingSlash(b);
    ExtraLeadingSlash("/" + b);
    assert "/" + "/" + ("/" + b) == "/" + "/" + ("/" + b);
    assert "/" + ("/" + b) == "/" + "/" + b;
  }

  /** One more leading '/' on a rooted path changes no segment. */
  lemma ExtraLeadingSlash(b: string)
    ensures GoPath.Segments("/" + "/" + b) == GoPath.Segments("/" + b)
  {
    var sb := GoStrings.Split(b, '/');
    GoPath.SplitRooted(b);
    GoPath.SplitRooted("/" + b);
    assert "/" + "/" + b == "/" + ("/" + b);
    assert GoStrings.Split("/" + "/" + b, '/') == [""] + ([""] + sb);
    assert ([""] + ([""] + sb))[1..] == [""] + sb;
  }

  /** The JSON fields the client's reply structs read: `redirect_path`,
      `error` and `token`. */
  datatype ReplyFields = ReplyFields(redirectPath: string, error: string, token: string)

  /** The fields a server document carries under those JSON names. */
  function FieldsOf(payload: Payload): (f: ReplyFields)
    ensures payload.TokenDoc? ==> f == ReplyFields("", "", payload.token)
    ensures payload.LoginFailedDoc? ==> f == ReplyFields(payload.redirectPath, payload.loginError, "")
    ensures payload.ClientErrorDoc? || payload.ServerErrorDoc? ==> f.error == payload.error && f.token == ""
    ensures f.token != "" ==> payload.TokenDoc?
  {
    match payload
    case ClientErrorDoc(e) => ReplyFields("", e, "")
    case ServerErrorDoc(e) => ReplyFields("", e, "")
    case LoginFailedDoc(p, e) => ReplyFields(p, e, "")
    case TokenDoc(t) => ReplyFields("", "", t)
    case _ => ReplyFields("", "", "")
  }

  /** Decoding what the server wrote as one JSON document: a JSON document
      yields its fields; an HTML or XML page fails at its first '<'; an empty
      body fails with end of file. Raw streams and redirects are not JSON
      replies. */
  function JsonBody(resp: Response): (r: Result<ReplyFields, string>)
    ensures r.Ok? <==> resp.Document? && resp.encoder.JsonEncoder?
    ensures r.Ok? ==> r.value == FieldsOf(resp.payload)
    ensures resp.Nothing? ==> r == Err("EOF")
  {
    match resp
    case Document(_, _, JsonEncoder, payload) => Ok(FieldsOf(payload))
    case Document(_, _, _, _) => Err("invalid character '<' looking for beginning of value")
    case Nothing => Err("EOF")
    case _ => Err("not a JSON document")
  }

  type Transport = Request -> Result<Response, string>

  /** What `http.Client.Do` hands back for what a handler did: when the
      handler panicked the server closes the connection without a reply,
      and `Do` fails with a transport error (`dropped`, whose wording
      depends on the transport); otherwise the reply arrives as written. */
  function Deliver(resp: Response, dropped: string): (r: Result<Response, string>)
    ensures r.Err? <==> resp.Crash?
    ensures r.Err? ==> r.error == dropped
    ensures r.Ok? ==> r.value == resp
  {
    if resp.Crash? then Err(dropped) else Ok(resp)
  }

  /** The login request: credentials as JSON, JSON asked for in return. */
  function LoginRequest(username: string, password: string): (req: Request)
    ensures req.httpMethod == "POST" && req.path == "/login"
    ensures req.contentType == FormatJson && req.accept == FormatJson
    ensures req.body.jsonLogin == Ok(Credentials(username, password))
  {
    Request("POST", "/login", FormatJson, FormatJson, "", map[], map[], map[],
            Body([], Ok(Credentials(username, password)), Err("EOF"), Err("request Content-Type isn't multipart/form-data")))
  }

  const NoTokenMessage: string := "No error on login, but no token was returned. This shouldn't be able to happen..."

  datatype LoginOutcome = LoginOutcome(token: string, err: Option<string>)

  /** The client's `Login` after the round trip: a transport or decoding
      error, an `error` field or a missing token leave the stored token as it
      was and report an error; otherwise the new token is stored. */
  function InterpretLogin(current: string, reply: Result<ReplyFields, string>): (r: LoginOutcome)
    ensures r.err.None? <==> reply.Ok? && reply.value.error == "" && reply.value.token != ""
    ensures r.err.Some? ==> r.token == current
    ensures r.err.None? ==> r.token == reply.value.token
    ensures reply.Ok? && reply.value.error != "" ==> r.err == Some(reply.value.error)
    ensures reply.Ok? && reply.value.error == "" && reply.value.token == "" ==> r.err == Some(NoTokenMessage)
  {
    match reply
    case Err(e) => LoginOutcome(current, Some(e))
    case Ok(f) =>
      if f.error != "" then LoginOutcome(current, Some(f.error))
      else if f.token == "" then LoginOutcome(current, Some(NoTokenMessage))
      else LoginOutcome(f.token, None)
  }

  function Login(current: string, username: string, password: string, send: Transport): (r: LoginOutcome)
    ensures send(LoginRequest(username, password)).Err? ==>
      r == LoginOutcome(current, Some(send(LoginRequest(username, password)).error))
    ensures r.err.Some? ==> r.token == current
    ensures r.err.None? <==>
      && send(LoginRequest(username, password)).Ok?
      && var reply := JsonBody(send(LoginRequest(username, password)).value);
      && reply.Ok? && reply.value.error == "" && reply.value.token != ""
    ensures r.err.None? ==> r.token == JsonBody(send(LoginRequest(username, password)).value).value.token
    ensures send(LoginRequest(username, password)).Ok? ==>
      r == InterpretLogin(current, JsonBody(send(LoginRequest(username, password)).value))
  {
    match send(LoginRequest(username, password))
    case Err(e) => LoginOutcome(current, Some(e))
    case Ok(resp) => InterpretLogin(current, JsonBody(resp))
  }

  /** A file to upload: its name, its content and the directory on the
      server to place it in. */
  datatype UploadFile = UploadFile(filename: string, content: seq<Byte>, uploadPath: string)

  /** The upload request: the raw content as an octet stream, the target in
      the `filename` query parameter, the stored token in `gfs-token`. */
  function UploadRequest(token: string, file: UploadFile): (req: Request)
    ensures req.httpMethod == "POST" && req.path == "/upload"
    ensures req.contentType == FormatOctetStream && req.accept == FormatJson
    ensures req.gfsToken == token
    ensures QueryValue(req, "filename") == UrlJoin(file.uploadPath, file.filename)
    ensures req.body.raw == file.content
  {
    Request("POST", "/upload", FormatJson, FormatOctetStream, token, map[], map[],
            map["filename" := UrlJoin(file.uploadPath, file.filename)],
            Body(file.content, Err("EOF"), Err("EOF"), Err("request Content-Type isn't multipart/form-data")))
  }

  /** The reply check of `UploadFile`: 202 is success without looking at the
      body; any other status is success unless the body fails to decode or
      carries a non-empty `error`. */
  function InterpretUpload(status: int, body: Result<ReplyFields, string>): (err: Option<string>)
    ensures status == StatusAccepted ==> err.None?
    ensures status != StatusAccepted ==>
      && (body.Err? ==> err == Some(body.error))
      && (body.Ok? ==> (err.None? <==> body.value.error == ""))
  {
    if status == StatusAccepted then None
    else
      match body
      case Err(e) => Some(e)
      case Ok(f) => if f.error != "" then Some(f.error) else None
  }

  /** `UploadFile`: send one file and check the reply. */
  function Upload(token: string, file: UploadFile, send: Transport): (err: Option<string>)
    ensures send(UploadRequest(token, file)).Err? ==> err == Some(send(UploadRequest(token, file)).error)
    ensures err.None? ==> send(UploadRequest(token, file)).Ok?
    ensures send(UploadRequest(token, file)).Ok? && StatusOf(send(UploadRequest(token, file)).value) == StatusAccepted ==>
      err.None?
    ensures send(UploadRequest(token, file)).Ok? && StatusOf(send(UploadRequest(token, file)).value) != StatusAccepted ==>
      var body := JsonBody(send(UploadRequest(token, file)).value);
      && (body.Err? ==> err == Some(body.error))
      && (body.Ok? ==> (err.None? <==> body.value.error == ""))
      && (body.Ok? && body.value.error != "" ==> err == Some(body.value.error))
  {
    match send(UploadRequest(token, file))
    case Err(e) => Some(e)
    case Ok(resp) => InterpretUpload(StatusOf(resp), JsonBody(resp))
  }

  datatype BatchReport = BatchReport(attempted: nat, err: Option<string>)

  /** The loop of `UploadFiles` over any per-file upload `up` (None on
      success, the error otherwise): files are tried in order and the first
      failure stops the rest. */
  function UploadEach(files: seq<UploadFile>, up: UploadFile -> Option<string>): (r: BatchReport)
    ensures r.attempted <= |files|
    ensures forall i :: 0 <= i < r.attempted - 1 ==> up(files[i]).None?
    ensures r.err.None? <==> r.attempted == |files| && (r.attempted == 0 || up(files[r.attempted - 1]).None?)
    ensures r.err.Some? ==> r.attempted >= 1 && r.err == up(files[r.attempted - 1])
    decreases |files|
  {
    if |files| == 0 then BatchReport(0, None)
    else
      match up(files[0])
      case Some(e) => BatchReport(1, Some(e))
      case None =>
        var rest := UploadEach(files[1..], up);
        assert forall i :: 1 <= i < |files| ==> files[i] == files[1..][i - 1];
        BatchReport(rest.attempted + 1, rest.err)
  }

  /** The loop reports success exactly when every file uploads. */
  lemma {:induction false} UploadEachSucceedsIff(files: seq<UploadFile>, up: UploadFile -> Option<string>)
    ensures UploadEach(files, up).err.None? <==> forall i :: 0 <= i < |files| ==> up(files[i]).None?
    decreases |files|
  {
    if |files| > 0 {
      var rest := files[1..];
      UploadEachSucceedsIff(rest, up);
      if up(files[0]).None? {
        assert UploadEach(files, up).err == UploadEach(rest, up).err;
        assert forall i :: 1 <= i < |files| ==> files[i] == rest[i - 1];
      }
    }
  }

  /** `UploadFiles`: the loop with the real upload of each file under the
      stored token as its step. */
  function UploadFiles(token: string, files: seq<UploadFile>, send: Transport): (r: BatchReport)
    ensures r.attempted <= |files|
    ensures r.err.Some? ==> r.attempted >= 1 && r.err == Upload(token, files[r.attempted - 1], send)
    ensures forall i :: 0 <= i < r.attempted - 1 ==> Upload(token, files[i], send).None?
    ensures r.err.None? ==> r.attempted == |files|
  {
    UploadEach(files, f => Upload(token, f, send))
  }

  /** A batch of real uploads reports success exactly when every file
      uploads. */
  lemma UploadFilesSucceedsIff(token: string, files: seq<UploadFile>, send: Transport)
    ensures UploadFiles(token, files, send).err.None? <==>
      forall i :: 0 <= i < |files| ==> Upload(token, files[i], send).None?
  {
    var up := f => Upload(token, f, send);
    UploadEachSucceedsIff(files, up);
    assert forall i :: 0 <= i < |files| ==> up(files[i]) == Upload(token, files[i], send);
  }
}

=== FILE: config.dfy ===
/** The server configuration the request handlers read. */
module Settings {

  /** `Config`: the login credentials (the password as a bcrypt hash), the
      serve root, the listening port, the token secret and whether reading
      requires a login. */
  datatype Config = Config(
    username: string,
    passwordHash: string,
    serve: string,
    port: string,
    secret: string,
    loginRequiredForRead: bool)
}

=== FILE: formats.dfy ===
/** The server's constants: media-type tokens, the default serve root and
    the version it reports. */
module Formats {
  import GoStrings
  import GoPath

  const FormatHtml: string := "text/html"
  const FormatJson: string := "application/json"
  const FormatXml: string := "application/xml"
  const FormatXFormUrlEncoded: string := "application/x-www-form-urlencoded"

  /** Used by the upload handler and the client but not declared with the
      other formats; given its conventional value here. */
  const FormatOctetStream: string := "application/octet-stream"

  /** The content type the upload handler compares against for form uploads. */
  const FormatMultipart: string := "multipart/form-data"

  const DefaultServePath: string := "/var/gfs/storage/"

  const GFSVersion: string := "0.0.2"

  /** A rooted path built from plain segments plus a trailing '/' is a clean
      directory root. */
  lemma RenderedDirIsCleanRoot(segs: seq<string>)
    requires |segs| >= 1
    requires forall i :: 0 <= i < |segs| ==> GoPath.Plain(segs[i])
    ensures GoPath.CleanDirRoot("/" + GoStrings.Join(segs, '/') + "/")
  {
    var t := "/" + GoStrings.Join(segs, '/');
    var root := t + "/";
    assert root[..|root| - 1] == t;
    assert GoPath.Resolved(true, segs);
    GoPath.SegmentsOfRender(true, segs);
    assert GoPath.Render(true, segs) == t;
    GoStrings.JoinHead(segs, '/');
    assert |t| >= 2;
  }

  /** The default serve root ends in '/' and is otherwise clean, so the
      upload prefix test on it admits only true descendants. */
  lemma DefaultServePathIsCleanRoot()
    ensures GoPath.CleanDirRoot(DefaultServePath)
  {
    var segs := ["var", "gfs", "storage"];
    GoStrings.JoinCons("gfs", ["storage"], '/');
    GoStrings.JoinCons("var", ["gfs", "storage"], '/');
    assert "/" + GoStrings.Join(segs, '/') + "/" == DefaultServePath;
    RenderedDirIsCleanRoot(segs);
  }
}

=== FILE: headers.dfy ===
/** Format negotiation and content-type lookup on request headers. */
module Headers {
  import opened Formats
  import opened Http
  import GoStrings

  /** The values negotiation can produce. */
  predicate IsNegotiated(f: string) {
    f == "" || f == FormatHtml || f == FormatJson || f == FormatXml
  }

  /** The format one Accept option stands for, or "" if it names none. The
      option is compared verbatim: no trimming, no parameter stripping. */
  function OptionFormat(option: string): (f: string)
    ensures IsNegotiated(f)
    ensures f == FormatHtml <==> option == FormatHtml
    ensures f == FormatJson <==> option == FormatJson || option == "text/json"
    ensures f == FormatXml <==> option == FormatXml || option == "text/xml"
  {
    if option == FormatHtml then FormatHtml
    else if option == "text/json" || option == FormatJson then FormatJson
    else if option == "text/xml" || option == FormatXml then FormatXml
    else ""
  }

  predicate Recognised(option: string) {
    OptionFormat(option) != ""
  }

  /** The position of the first recognised option, or |options| if none is. */
  function FirstRecognisedIndex(options: seq<string>): (k: nat)
    ensures k <= |options|
    ensures k < |options| ==> Recognised(options[k])
    ensures forall j :: 0 <= j < k ==> !Recognised(options[j])
  {
    if |options| == 0 then 0
    else if Recognised(options[0]) then 0
    else
      var k := FirstRecognisedIndex(options[1..]);
      assert forall j :: 1 <= j < k + 1 ==> options[j] == options[1..][j - 1];
      k + 1
  }

  /** `getResponseFormat`: the Accept header split on ',' and scanned left to
      right; the first recognised option decides, and none gives "". */
  function GetResponseFormat(accept: string): (f: string)
    ensures accept == "" ==> f == ""
    ensures IsNegotiated(f)
    ensures var options := GoStrings.Split(accept, ',');
      var k := FirstRecognisedIndex(options);
      && (f == "" <==> forall i :: 0 <= i < |options| ==> !Recognised(options[i]))
      && (f != "" ==> k < |options| && f == OptionFormat(options[k]))
  {
    if accept == "" then ""
    else
      var options := GoStrings.Split(accept, ',');
      var k := FirstRecognisedIndex(options);
      if k < |options| then OptionFormat(options[k]) else ""
  }

  /** `getContentType`: the Content-Type header, verbatim. */
  function GetContentType(r: Request): (ct: string)
    ensures ct == r.contentType
  {
    r.contentType
  }

  /** A header with a single option negotiates exactly that option's format. */
  lemma SingleOption(option: string)
    requires option != "" && ',' !in option
    ensures GetResponseFormat(option) == OptionFormat(option)
  {
    GoStrings.SplitSingle(option, ',');
  }

  /** An unrecognised leading option is skipped: negotiation continues with
      the rest of the header as if the option were not there. */
  lemma SkipUnrecognised(option: string, rest: string)
    requires ',' !in option && !Recognised(option)
    requires rest != ""
    ensures GetResponseFormat(option + [','] + rest) == GetResponseFormat(rest)
  {
    GoStrings.SplitConcat(option, rest, ',');
    GoStrings.SplitSingle(option, ',');
    var tail := GoStrings.Split(rest, ',');
    var options := GoStrings.Split(option + [','] + rest, ',');
    assert options == [option] + tail;
    assert options[1..] == tail;
    assert FirstRecognisedIndex(options) == FirstRecognisedIndex(tail) + 1;
  }

  /** Options are matched without trimming: any option with leading white
      space is unrecognised, so "text/plain, application/json" negotiates
      nothing. */
  lemma LeadingSpaceHides(option: string)
    ensures !Recognised([' '] + option)
  {
    var padded := [' '] + option;
    assert padded[0] == ' ';
    assert FormatHtml[0] == 't' && FormatJson[0] == 'a' && FormatXml[0] == 'a';
    assert "text/json"[0] == 't' && "text/xml"[0] == 't';
  }

  /** Media-type parameters are not stripped: an option carrying one, such
      as "application/json;q=0.9", is unrecognised. */
  lemma ParameterHides(option: string)
    requires ';' in option
    ensures !Recognised(option)
  {
    assert ';' !in FormatHtml && ';' !in FormatJson && ';' !in FormatXml;
    assert ';' !in "text/json" && ';' !in "text/xml";
  }
}

=== FILE: http.dfy ===
/** The data the request pipeline works on: requests as the handlers read
    them, the documents they answer with, and what a handler writes. */
module Http {
  import opened Outcomes

  newtype Byte = b: int | 0 <= b < 256

  const StatusOK: int := 200
  const StatusAccepted: int := 202
  const StatusFound: int := 302
  const StatusBadRequest: int := 400
  const StatusUnauthorized: int := 401
  const StatusNotFound: int := 404
  const StatusMethodNotAllowed: int := 405
  const StatusInternalServerError: int := 500

  /** A username and password as submitted to the login route. */
  datatype Credentials = Credentials(username: string, password: string)

  /** How writing one uploaded file fails: creating the parent directories,
      creating (truncating) the file, or copying after `written` bytes. */
  datatype IoFault =
    | MkdirFailed(msg: string)
    | CreateFailed(msg: string)
    | CopyFailed(msg: string, written: nat)

  /** One part named `uploadfiles` of a multipart form: its file name, its
      content, whether opening it fails, and how writing it fails. */
  datatype FilePart = FilePart(filename: string, content: seq<Byte>, openFault: Option<string>, writeFault: Option<IoFault>)

  /** What the body of a request decodes to. The JSON, XML and multipart
      decoders are not modelled; their outcomes for this body are given. */
  datatype Body = Body(
    raw: seq<Byte>,
    jsonLogin: Result<Credentials, string>,
    xmlLogin: Result<Credentials, string>,
    /** What decoding the body as a multipart form gives once the content
        type carries a boundary: its `uploadfiles` parts, if the field exists. */
    multipart: Result<Option<seq<FilePart>>, string>)

  /** A request as the handlers see it. A header that is absent reads as "",
      as with Go's `Header.Get`. */
  datatype Request = Request(
    httpMethod: string,
    path: string,
    accept: string,
    contentType: string,
    gfsToken: string,
    cookies: map<string, string>,
    form: map<string, string>,
    query: map<string, string>,
    body: Body)

  /** `FormValue`: the named form field, or "" when it is absent. */
  function FormValue(r: Request, key: string): (v: string)
    ensures key !in r.form ==> v == ""
    ensures key in r.form ==> v == r.form[key]
  {
    if key in r.form then r.form[key] else ""
  }

  /** `URL.Query().Get`: the named query parameter, or "" when it is absent. */
  function QueryValue(r: Request, key: string): (v: string)
    ensures key !in r.query ==> v == ""
    ensures key in r.query ==> v == r.query[key]
  {
    if key in r.query then r.query[key] else ""
  }

  /** What a stat of a path reports. */
  datatype FileInfo = FileInfo(name: string, size: int, modTime: int, isDir: bool)

  /** Why a stat fails: the path does not exist, or anything else. */
  datatype StatError = NotExist | StatFailed(msg: string) {
    function Message(): string {
      match this
      case NotExist => "no such file or directory"
      case StatFailed(m) => m
    }
  }

  datatype DirectoryEntry = DirectoryEntry(name: string, path: string, size: int, isDirectory: bool, modTime: int)

  datatype DirectoryStats = DirectoryStats(name: string, path: string, modTime: int, entries: seq<DirectoryEntry>, authorized: bool)

  datatype FileStats = FileStats(name: string, path: string, size: int, modTime: int)

  /** The documents handlers hand to the response encoder. */
  datatype Payload =
    | ClientErrorDoc(error: string)
    | ServerErrorDoc(error: string)
    | NotFoundDoc(notFoundPath: string)
    | DirectoryDoc(dir: DirectoryStats)
    | FileDoc(file: FileStats)
    | LoginFailedDoc(redirectPath: string, loginError: string)
    | TokenDoc(token: string)

  /** The HTML template each handler owns; the login success path passes none. */
  datatype Template = ClientErrorPage | ServerErrorPage | NotFoundPage | DirectoryPage | FilePage | LoginFailedPage | NoTemplate

  datatype Encoder = HtmlEncoder(template: Template) | JsonEncoder | XmlEncoder

  datatype Cookie = Cookie(name: string, value: string, path: string, maxAge: int, expiresNs: int)

  /** What a handler writes. `Nothing` means the handler wrote nothing, so
      the server answers 200 with an empty body; `Crash` means the handler
      panicked after writing `written` into the response buffer. */
  datatype Response =
    | Document(status: int, contentType: string, encoder: Encoder, payload: Payload)
    | Redirect(location: string, cookie: Option<Cookie>)
    | Stream(bytes: seq<Byte>)
    | Nothing
    | Crash(written: Response)

  /** The status line the client receives; 0 when the handler panicked.
      net/http then closes the connection without flushing the response
      buffer, so what the handler wrote (a short error page at most) never
      leaves the server. */
  function StatusOf(r: Response): int {
    match r
    case Document(s, _, _, _) => s
    case Redirect(_, _) => StatusFound
    case Stream(_) => StatusOK
    case Nothing => StatusOK
    case Crash(_) => 0
  }
}

=== FILE: interplay.dfy ===
/** The client against the server: what the client concludes from the
    server's answers to the requests it builds. */
module Interplay {
  import opened Outcomes
  import opened Formats
  import opened Http
  import opened Settings
  import Headers
  import Authorization
  import Jwt
  import Upload
  import Server
  import Client
  import GoStrings
  import GoPath

  /** The client asks for JSON, and negotiation grants it. */
  lemma ClientGetsJson()
    ensures Headers.GetResponseFormat(FormatJson) == FormatJson
  {
    assert ',' !in FormatJson;
    Headers.SingleOption(FormatJson);
  }

  /** A client login stores a token exactly when the server's login succeeds,
      and then it is the token the server issued; otherwise the client keeps
      its old token, and a wrong username or password reaches it as the
      server's "Invalid username or password". */
  lemma JsonLoginRoundTrip(config: Config, env: Server.ServerEnv, disk: Upload.Disk,
                           current: string, username: string, password: string)
    ensures var req := Client.LoginRequest(username, password);
      var resp := Server.Serve(Server.LoginRoute, config, req, env, disk).response;
      var outcome := Client.InterpretLogin(current, Client.JsonBody(resp));
      var token := Jwt.GetToken(config.secret, env.auth.expiryNs, env.auth.issueNs, env.auth.tokenId, env.auth.lib);
      var matches := username == config.username && env.auth.checkPassword(password, config.passwordHash) == Ok(true);
      && (outcome.err.None? <==> matches && token.Ok? && token.value != "")
      && (outcome.err.None? ==> outcome.token == token.value)
      && (outcome.err.Some? ==> outcome.token == current)
      && (username != config.username ==> outcome.err == Some(Authorization.InvalidCredentials))
      && (username == config.username && env.auth.checkPassword(password, config.passwordHash) == Ok(false) ==>
            outcome.err == Some(Authorization.InvalidCredentials))
  {
    LoginReplyIsLogin(config, env, disk, username, password);
    JsonLoginOutcome(config, env.auth, current, username, password);
  }

  /** The login route answers the client's request with `Login` in JSON. */
  lemma LoginReplyIsLogin(config: Config, env: Server.ServerEnv, disk: Upload.Disk, username: string, password: string)
    ensures var req := Client.LoginRequest(username, password);
      Server.Serve(Server.LoginRoute, config, req, env, disk).response
        == Authorization.Login(config, req, FormatJson, env.auth).written
  {
    ClientGetsJson();
  }

  /** What the client makes of `Login` answered in JSON. */
  lemma JsonLoginOutcome(config: Config, env: Authorization.AuthEnv, current: string, username: string, password: string)
    ensures var req := Client.LoginRequest(username, password);
      var outcome := Client.InterpretLogin(current, Client.JsonBody(Authorization.Login(config, req, FormatJson, env).written));
      var token := Jwt.GetToken(config.secret, env.expiryNs, env.issueNs, env.tokenId, env.lib);
      var matches := username == config.username && env.checkPassword(password, config.passwordHash) == Ok(true);
      && (outcome.err.None? <==> matches && token.Ok? && token.value != "")
      && (outcome.err.None? ==> outcome.token == token.value)
      && (outcome.err.Some? ==> outcome.token == current)
      && (username != config.username ==> outcome.err == Some(Authorization.InvalidCredentials))
      && (username == config.username && env.checkPassword(password, config.passwordHash) == Ok(false) ==>
            outcome.err == Some(Authorization.InvalidCredentials))
  {
    var req := Client.LoginRequest(username, password);
    assert Authorization.Submission(req) == Ok(Authorization.Submitted(username, password, ""));
    var w := Authorization.Login(config, req, FormatJson, env).written;
    assert w.Document? && w.encoder.JsonEncoder?;
  }

  /** The client's transport when it talks to this server: each request is
      routed by its path and answered against the same store, and a handler
      panic reaches the client as the transport error `dropped`. */
  function Wire(config: Config, env: Server.ServerEnv, disk: Upload.Disk, dropped: string): Client.Transport {
    (req: Request) => Client.Deliver(Server.Serve(Server.RouteFor(req.path), config, req, env, disk).response, dropped)
  }

  /** The server's answer to a client upload that stays under the root when
      the file system does not fail: the content is stored and the reply is
      200 with nothing written. */
  lemma StoredUploadReply(config: Config, env: Server.ServerEnv, disk: Upload.Disk,
                          token: string, file: Client.UploadFile)
    requires Server.Authenticate(config, Client.UploadRequest(token, file), env).Accepted?
    requires env.writeFault.None?
    requires var target := Client.UrlJoin(file.uploadPath, file.filename);
      GoStrings.HasPrefix(GoPath.Join(config.serve, target), config.serve)
    ensures Server.Serve(Server.UploadRoute, config, Client.UploadRequest(token, file), env, disk)
      == Server.Reply(GFSVersion, Nothing,
                      disk[GoPath.Join(config.serve, Client.UrlJoin(file.uploadPath, file.filename)) := file.content])
  {
    var req := Client.UploadRequest(token, file);
    var h := Upload.Handle(config.serve, req, env.writeFault, disk);
    assert h.err.None? && h.written == Nothing;
  }

  /** The server's answer to a client upload that stays under the root when
      the file system fails to create the directories or the file, or to
      copy the content: 500 in JSON with the file system's error text, and
      the store as the failed write left it. */
  lemma FailedWriteReply(config: Config, env: Server.ServerEnv, disk: Upload.Disk,
                         token: string, file: Client.UploadFile)
    requires Server.Authenticate(config, Client.UploadRequest(token, file), env).Accepted?
    requires env.writeFault.Some?
    requires var target := Client.UrlJoin(file.uploadPath, file.filename);
      GoStrings.HasPrefix(GoPath.Join(config.serve, target), config.serve)
    ensures var target := Client.UrlJoin(file.uploadPath, file.filename);
      var reply := Server.Serve(Server.UploadRoute, config, Client.UploadRequest(token, file), env, disk);
      && reply.response == Server.ServerError(FormatJson, env.writeFault.value.msg)
      && reply.disk == Upload.UploadFile(config.serve, target, file.content, env.writeFault, disk).disk
      && (!env.writeFault.value.CopyFailed? ==> reply.disk == disk)
  {
    ClientGetsJson();
    var req := Client.UploadRequest(token, file);
    Upload.FaultedStreamFails(config.serve, req, env.writeFault, disk);
    Upload.FaultedWrite(config.serve, Client.UrlJoin(file.uploadPath, file.filename), file.content, env.writeFault, disk);
    Server.UploadServerErrorReply(config, req, env, disk, env.writeFault.value.msg);
  }

  /** A failed write on the server reaches the client, over the wire, as the
      file system's error text; an error with empty text would be taken for
      success, since the client only looks at the `error` field. */
  lemma FailedWriteReportsError(config: Config, env: Server.ServerEnv, disk: Upload.Disk, dropped: string,
                                token: string, file: Client.UploadFile)
    requires Server.Authenticate(config, Client.UploadRequest(token, file), env).Accepted?
    requires env.writeFault.Some?
    requires var target := Client.UrlJoin(file.uploadPath, file.filename);
      GoStrings.HasPrefix(GoPath.Join(config.serve, target), config.serve)
    ensures var msg := env.writeFault.value.msg;
      Client.Upload(token, file, Wire(config, env, disk, dropped)) == (if msg == "" then None else Some(msg))
  {
    var req := Client.UploadRequest(token, file);
    FailedWriteReply(config, env, disk, token, file);
    var resp := Server.ServerError(FormatJson, env.writeFault.value.msg);
    assert Server.RouteFor(req.path) == Server.UploadRoute;
    assert Wire(config, env, disk, dropped)(req) == Ok(resp);
    assert resp.encoder.JsonEncoder? && resp.status == StatusInternalServerError;
  }

  /** A token check that panics on an upload ends the request without an
      answer, and the client reports the transport's error. */
  lemma PanicReachesClientAsTransportError(config: Config, env: Server.ServerEnv, disk: Upload.Disk, dropped: string,
                                           token: string, file: Client.UploadFile)
    requires Server.Authenticate(config, Client.UploadRequest(token, file), env).Panicked?
    ensures Client.Upload(token, file, Wire(config, env, disk, dropped)) == Some(dropped)
  {
    var req := Client.UploadRequest(token, file);
    assert Server.RouteFor(req.path) == Server.UploadRoute;
    assert Server.Serve(Server.UploadRoute, config, req, env, disk).response == Crash(Nothing);
  }

  /** A successful upload through the client is reported as a failure: the
      server answers a stored octet stream with 200 and an empty body, and
      the client, which skips the body only for 202, fails to decode it. */
  lemma SuccessfulUploadReportsEof(config: Config, env: Server.ServerEnv, disk: Upload.Disk,
                                   token: string, file: Client.UploadFile)
    requires Server.Authenticate(config, Client.UploadRequest(token, file), env).Accepted?
    requires env.writeFault.None?
    requires var target := Client.UrlJoin(file.uploadPath, file.filename);
      GoStrings.HasPrefix(GoPath.Join(config.serve, target), config.serve)
    ensures var reply := Server.Serve(Server.UploadRoute, config, Client.UploadRequest(token, file), env, disk);
      && reply.disk == disk[GoPath.Join(config.serve, Client.UrlJoin(file.uploadPath, file.filename)) := file.content]
      && StatusOf(reply.response) == StatusOK
      && Client.InterpretUpload(StatusOf(reply.response), Client.JsonBody(reply.response)) == Some("EOF")
  {
    StoredUploadReply(config, env, disk, token, file);
    var reply := Server.Serve(Server.UploadRoute, config, Client.UploadRequest(token, file), env, disk);
    assert reply.response == Nothing;
    assert Client.JsonBody(Nothing) == Err("EOF");
  }

  /** The server's answer to a client upload that leaves the root: 400 in
      JSON with the refusal text, and nothing stored. */
  lemma EscapingUploadReply(config: Config, env: Server.ServerEnv, disk: Upload.Disk,
                            token: string, file: Client.UploadFile)
    requires Server.Authenticate(config, Client.UploadRequest(token, file), env).Accepted?
    requires var target := Client.UrlJoin(file.uploadPath, file.filename);
      !GoStrings.HasPrefix(GoPath.Join(config.serve, target), config.serve)
    ensures Server.Serve(Server.UploadRoute, config, Client.UploadRequest(token, file), env, disk)
      == Server.Reply(GFSVersion,
                      Server.ClientError(StatusBadRequest, FormatJson, Upload.UploadError.ErrNoUploadingUp.Message()),
                      disk)
  {
    ClientGetsJson();
    var req := Client.UploadRequest(token, file);
    var h := Upload.Handle(config.serve, req, env.writeFault, disk);
    assert h.err == Some(Upload.ErrNoUploadingUp) && h.disk == disk;
  }

  /** An upload the server refuses for leaving the serve root reaches the
      client as the server's error text. */
  lemma EscapingUploadReportsRefusal(config: Config, env: Server.ServerEnv, disk: Upload.Disk,
                                     token: string, file: Client.UploadFile)
    requires Server.Authenticate(config, Client.UploadRequest(token, file), env).Accepted?
    requires var target := Client.UrlJoin(file.uploadPath, file.filename);
      !GoStrings.HasPrefix(GoPath.Join(config.serve, target), config.serve)
    ensures var reply := Server.Serve(Server.UploadRoute, config, Client.UploadRequest(token, file), env, disk);
      && reply.disk == disk
      && StatusOf(reply.response) == StatusBadRequest
      && Client.InterpretUpload(StatusOf(reply.response), Client.JsonBody(reply.response))
           == Some(Upload.UploadError.ErrNoUploadingUp.Message())
  {
    EscapingUploadReply(config, env, disk, token, file);
    var resp := Server.ClientError(StatusBadRequest, FormatJson, Upload.UploadError.ErrNoUploadingUp.Message());
    assert resp.encoder.JsonEncoder? && resp.status == StatusBadRequest;
  }
}

=== FILE: jwt.dfy ===
/** Token issuing and checking. The JWT library's segment decoding, HMAC
    computation and clock-based claim validation are not modelled: they are
    the functions of a `JwtLibrary` value. What the server decides on top of
    them is modelled exactly: which signing method releases the secret, which
    claims a fresh token carries, and how a parsed token becomes a verdict. */
module Jwt {
  import opened Outcomes
  import GoStrings

  /** The algorithm families the JWT library knows. */
  datatype Family = Hmac | Rsa | RsaPss | Ecdsa | Unsecured

  /** A signing method as the library resolves it from a token's `alg`
      header; the library keeps one instance per algorithm name. */
  datatype SigningMethod = SigningMethod(family: Family, alg: string)

  const HS256: SigningMethod := SigningMethod(Hmac, "HS256")

  /** A claim value as JSON decodes it: a string, a number or anything else. */
  datatype ClaimValue = StringClaim(s: string) | NumberClaim(n: int) | OtherClaim

  /** The claims of a token decoded as a generic map (`jwt.MapClaims`). */
  type Claims = map<string, ClaimValue>

  /** The registered claims the server fills in when it issues a token. */
  datatype StandardClaims = StandardClaims(expiresAt: int, issuedAt: int, id: string, subject: string)

  /** A token split into its parts: the method its header names, its claims,
      the signed text and the signature. */
  datatype Token = Token(signingMethod: SigningMethod, claims: Claims, signingInput: string, signature: string)

  /** The JWT library as the server uses it. `decode` covers segment
      splitting, base64 and JSON decoding and the method lookup; `verify` is
      the method's signature check under a key; `claimsError` is the
      clock-dependent validation of exp, iat and nbf; `sign` serialises and
      signs claims. */
  datatype JwtLibrary = JwtLibrary(
    decode: string -> Result<Token, string>,
    verify: (SigningMethod, string, string, string) -> bool,
    claimsError: Claims -> Option<string>,
    sign: (SigningMethod, Claims, string) -> Result<string, string>)

  /** A token as `jwt.Parse` hands it back when it reports no error: its
      claims if they are a generic map, and its validity flag. */
  datatype Parsed = Parsed(mapClaims: Option<Claims>, valid: bool)

  /** What `GetTokenData` amounts to for the caller: no error, an error, or a
      panic from the unchecked type assertion on `sub`. */
  datatype Verdict = Accepted | Rejected(msg: string) | Panicked

  /** `getValidationKeyGetter`: the secret is released for HS256 only; every
      other method, HMAC or not, is refused with an error naming it. */
  function KeyFor(secret: string, m: SigningMethod): (r: Result<string, string>)
    ensures r.Ok? <==> m == HS256
    ensures r.Ok? ==> r.value == secret
    ensures r.Err? ==> GoStrings.HasPrefix(r.error, "Unexpected signing method: ")
  {
    if m.family != Hmac then Err("Unexpected signing method: " + m.alg)
    else if m != HS256 then Err("Unexpected signing method: " + m.alg)
    else Ok(secret)
  }

  /** `jwt.Parse` with the server's key getter: decoding errors and key
      getter refusals are returned; a signature that does not verify under
      the released key, or claims the clock rejects, make an error too (the
      signature error is the one reported when both fail). */
  function Parse(tokenString: string, secret: string, lib: JwtLibrary): (r: Result<Parsed, string>)
    ensures r.Ok? <==>
      && lib.decode(tokenString).Ok?
      && lib.decode(tokenString).value.signingMethod == HS256
      && lib.verify(HS256, lib.decode(tokenString).value.signingInput, lib.decode(tokenString).value.signature, secret)
      && lib.claimsError(lib.decode(tokenString).value.claims).None?
    ensures r.Ok? ==> r.value == Parsed(Some(lib.decode(tokenString).value.claims), true)
  {
    match lib.decode(tokenString)
    case Err(e) => Err(e)
    case Ok(t) =>
      match KeyFor(secret, t.signingMethod)
      case Err(e) => Err(e)
      case Ok(key) =>
        if !lib.verify(t.signingMethod, t.signingInput, t.signature, key) then Err("signature is invalid")
        else if lib.claimsError(t.claims).Some? then Err(lib.claimsError(t.claims).value)
        else Ok(Parsed(Some(t.claims), true))
  }

  /** `GetTokenData` given the outcome of parsing, with `unmarshal` standing
      for `json.Unmarshal` of the subject into the caller's output (None on
      success, the error otherwise). A parse error is returned; a valid map
      token needs a string `sub` that unmarshals; any other parsed token falls
      through and returns the (nil) parse error. */
  function TokenData(parsed: Result<Parsed, string>, unmarshal: string -> Option<string>): (v: Verdict)
    ensures parsed.Err? ==> v == Rejected(parsed.error)
    ensures parsed.Ok? && !(parsed.value.mapClaims.Some? && parsed.value.valid) ==> v == Accepted
    ensures parsed.Ok? && parsed.value.mapClaims.Some? && parsed.value.valid ==>
      var claims := parsed.value.mapClaims.value;
      && ("sub" !in claims ==> v == Rejected("Invalid token. Sub was not set. "))
      && ("sub" in claims && !claims["sub"].StringClaim? ==> v == Panicked)
      && ("sub" in claims && claims["sub"].StringClaim? ==>
            (v == Accepted <==> unmarshal(claims["sub"].s).None?))
  {
    match parsed
    case Err(e) => Rejected(e)
    case Ok(p) =>
      if p.mapClaims.Some? && p.valid then
        var claims := p.mapClaims.value;
        if "sub" in claims then
          match claims["sub"]
          case StringClaim(s) =>
            (match unmarshal(s)
             case None => Accepted
             case Some(e) => Rejected(e))
          case _ => Panicked
        else Rejected("Invalid token. Sub was not set. ")
      else Accepted
  }

  /** `GetTokenData(tokenString, secret, output)`. */
  function GetTokenData(tokenString: string, secret: string, lib: JwtLibrary, unmarshal: string -> Option<string>): (v: Verdict)
    ensures lib.decode(tokenString).Err? ==> v == Rejected(lib.decode(tokenString).error)
    ensures lib.decode(tokenString).Ok? && lib.decode(tokenString).value.signingMethod != HS256 ==>
      v.Rejected? && GoStrings.HasPrefix(v.msg, "Unexpected signing method: ")
    ensures v == Panicked ==>
      && lib.decode(tokenString).Ok?
      && var claims := lib.decode(tokenString).value.claims;
      && "sub" in claims && !claims["sub"].StringClaim?
  {
    TokenData(Parse(tokenString, secret, lib), unmarshal)
  }

  /** The fall-through branch of `GetTokenData` can only be reached when
      parsing succeeds without a valid map token, which `jwt.Parse` never
      produces: every successful parse is a valid map token. */
  lemma ParseNeverFallsThrough(tokenString: string, secret: string, lib: JwtLibrary)
    ensures Parse(tokenString, secret, lib).Ok? ==>
      Parse(tokenString, secret, lib).value.mapClaims.Some? && Parse(tokenString, secret, lib).value.valid
  {
  }

  /** A token is accepted exactly when it decodes, names HS256, carries a
      signature that verifies under the server's secret, has claims the
      clock admits, and has a string subject that unmarshals. */
  lemma AcceptedIff(tokenString: string, secret: string, lib: JwtLibrary, unmarshal: string -> Option<string>)
    ensures GetTokenData(tokenString, secret, lib, unmarshal) == Accepted <==>
      && lib.decode(tokenString).Ok?
      && var t := lib.decode(tokenString).value;
      && t.signingMethod == HS256
      && lib.verify(HS256, t.signingInput, t.signature, secret)
      && lib.claimsError(t.claims).None?
      && "sub" in t.claims && t.claims["sub"].StringClaim?
      && unmarshal(t.claims["sub"].s).None?
  {
  }

  const NanosPerSecond: int := 1_000_000_000

  /** Thirty-one days, the lifetime of an issued token and of its cookie. */
  const TokenLifetimeSeconds: int := 31 * 24 * 60 * 60

  const TokenLifetimeNanos: int := TokenLifetimeSeconds * NanosPerSecond

  /** `time.Time.Unix()` of a clock reading in nanoseconds since the epoch:
      the whole seconds, rounded down also before the epoch. */
  function UnixSeconds(ns: int): (s: int)
    ensures s * NanosPerSecond <= ns < (s + 1) * NanosPerSecond
  {
    ns / NanosPerSecond
  }

  /** Adding whole seconds to a reading adds them to its Unix time. */
  lemma UnixSecondsShift(ns: int, k: int)
    ensures UnixSeconds(ns + k * NanosPerSecond) == UnixSeconds(ns) + k
  {
    var s := UnixSeconds(ns);
    var t := UnixSeconds(ns + k * NanosPerSecond);
    assert (s + k) * NanosPerSecond == s * NanosPerSecond + k * NanosPerSecond;
    assert (s + k + 1) * NanosPerSecond == (s + 1) * NanosPerSecond + k * NanosPerSecond;
    UnixSecondsUnique(ns + k * NanosPerSecond, t, s + k);
  }

  /** Only one whole second brackets a reading. */
  lemma UnixSecondsUnique(ns: int, a: int, b: int)
    requires a * NanosPerSecond <= ns < (a + 1) * NanosPerSecond
    requires b * NanosPerSecond <= ns < (b + 1) * NanosPerSecond
    ensures a == b
  {
  }

  /** A later reading never has a smaller Unix time. */
  lemma UnixSecondsMonotonic(a: int, b: int)
    ensures a <= b ==> UnixSeconds(a) <= UnixSeconds(b)
  {
  }

  /** The claims of a token issued from two clock readings, `first` for the
      expiry and the later `second` for the issue time, with a fresh `id`. */
  function IssueClaims(firstNs: int, secondNs: int, id: string): (c: StandardClaims)
    ensures c.subject == "{}" && c.id == id
    ensures c.expiresAt == UnixSeconds(firstNs) + TokenLifetimeSeconds
    ensures c.issuedAt == UnixSeconds(secondNs)
    ensures firstNs <= secondNs ==> c.expiresAt - c.issuedAt <= TokenLifetimeSeconds
  {
    UnixSecondsShift(firstNs, TokenLifetimeSeconds);
    UnixSecondsMonotonic(firstNs, secondNs);
    StandardClaims(UnixSeconds(firstNs + TokenLifetimeNanos), UnixSeconds(secondNs), id, "{}")
  }

  /** The claims as a generic map, as encoding/json would produce them:
      `exp`, `jti`, `iat` and `sub`, each left out when zero or empty. */
  function ClaimsOf(c: StandardClaims): (m: Claims)
    ensures c.subject != "" ==> "sub" in m && m["sub"] == StringClaim(c.subject)
    ensures c.subject == "" ==> "sub" !in m
    ensures c.id != "" ==> "jti" in m && m["jti"] == StringClaim(c.id)
    ensures c.expiresAt != 0 ==> "exp" in m && m["exp"] == NumberClaim(c.expiresAt)
    ensures c.issuedAt != 0 ==> "iat" in m && m["iat"] == NumberClaim(c.issuedAt)
    ensures c.id == "" ==> "jti" !in m
    ensures c.expiresAt == 0 ==> "exp" !in m
    ensures c.issuedAt == 0 ==> "iat" !in m
    ensures m.Keys <= {"exp", "jti", "iat", "sub"}
  {
    var m0: Claims := map[];
    var m1 := if c.expiresAt != 0 then m0["exp" := NumberClaim(c.expiresAt)] else m0;
    var m2 := if c.id != "" then m1["jti" := StringClaim(c.id)] else m1;
    var m3 := if c.issuedAt != 0 then m2["iat" := NumberClaim(c.issuedAt)] else m2;
    if c.subject != "" then m3["sub" := StringClaim(c.subject)] else m3
  }

  /** `GetToken`: the issued claims signed with HS256 under the secret:
      subject "{}", the id, the expiry 31 days after the first reading and
      the issue time of the second, each left out when empty or zero, and
      nothing else. */
  function GetToken(secret: string, firstNs: int, secondNs: int, id: string, lib: JwtLibrary): (r: Result<string, string>)
    ensures exists claims ::
      && r == lib.sign(HS256, claims, secret)
      && claims.Keys <= {"exp", "jti", "iat", "sub"}
      && "sub" in claims && claims["sub"] == StringClaim("{}")
      && ("jti" in claims <==> id != "")
      && (id != "" ==> claims["jti"] == StringClaim(id))
      && ("exp" in claims <==> UnixSeconds(firstNs) + TokenLifetimeSeconds != 0)
      && ("exp" in claims ==> claims["exp"] == NumberClaim(UnixSeconds(firstNs) + TokenLifetimeSeconds))
      && ("iat" in claims <==> UnixSeconds(secondNs) != 0)
      && ("iat" in claims ==> claims["iat"] == NumberClaim(UnixSeconds(secondNs)))
  {
    var claims := ClaimsOf(IssueClaims(firstNs, secondNs, id));
    assert "sub" in claims && claims["sub"] == StringClaim("{}");
    lib.sign(HS256, claims, secret)
  }

  /** The library decodes what it signs, reporting the method and claims it
      was given, and the signature verifies under the signing key. */
  ghost predicate DecodesWhatItSigns(lib: JwtLibrary) {
    forall m, c, key, s :: lib.sign(m, c, key) == Ok(s) ==>
      && lib.decode(s).Ok?
      && lib.decode(s).value.signingMethod == m
      && lib.decode(s).value.claims == c
      && lib.verify(m, lib.decode(s).value.signingInput, lib.decode(s).value.signature, key)
  }

  /** A token the server issued passes its own check while the clock admits
      its claims and the empty object unmarshals: the method is HS256, the
      subject is the string "{}". */
  lemma IssuedTokenAccepted(secret: string, firstNs: int, secondNs: int, id: string, lib: JwtLibrary, unmarshal: string -> Option<string>)
    requires DecodesWhatItSigns(lib)
    requires GetToken(secret, firstNs, secondNs, id, lib).Ok?
    requires lib.claimsError(ClaimsOf(IssueClaims(firstNs, secondNs, id))).None?
    requires unmarshal("{}").None?
    ensures GetTokenData(GetToken(secret, firstNs, secondNs, id, lib).value, secret, lib, unmarshal) == Accepted
  {
    var claims := ClaimsOf(IssueClaims(firstNs, secondNs, id));
    var s := GetToken(secret, firstNs, secondNs, id, lib).value;
    assert lib.sign(HS256, claims, secret) == Ok(s);
    AcceptedIff(s, secret, lib, unmarshal);
  }
}

=== FILE: listing.dfy ===
/** Directory listings and file descriptors built from what the file system
    reports, and the file handler's choice between raw bytes and a
    descriptor document. */
module Listing {
  import opened Outcomes
  import opened Http
  import Responses
  import Formats
  import GoPath

  /** The file system as the read path sees it, keyed by full path: `stat`,
      `ReadDir` (its entries in the order it returns them) and the bytes an
      open-and-copy delivers. */
  datatype FsView = FsView(
    stat: string -> Result<FileInfo, StatError>,
    readDir: string -> Result<seq<FileInfo>, string>,
    read: string -> Result<seq<Byte>, string>)

  /** `isDirectory`: the stat error if there is one, else the directory flag. */
  function IsDirectory(fs: FsView, p: string): (r: Result<bool, StatError>)
    ensures fs.stat(p).Err? ==> r == Err(fs.stat(p).error)
    ensures fs.stat(p).Ok? ==> r == Ok(fs.stat(p).value.isDir)
  {
    match fs.stat(p)
    case Err(e) => Err(e)
    case Ok(info) => Ok(info.isDir)
  }

  const NotADirectory: string := "Cannot get directory stats of something that is not a directory..."

  /** The listing entry for one `ReadDir` result inside the directory whose
      logical path is `p`. */
  function EntryOf(p: string, info: FileInfo): DirectoryEntry {
    DirectoryEntry(info.name, GoPath.Join(p, info.name), if info.isDir then 0 else info.size, info.isDir, info.modTime)
  }

  /** The entries of a listing: one per `ReadDir` result, in the same order,
      named as the file system names them, placed at `Join(p, name)`, with
      size 0 for directories and the file size otherwise. */
  function Entries(p: string, infos: seq<FileInfo>): (es: seq<DirectoryEntry>)
    ensures |es| == |infos|
    ensures forall i :: 0 <= i < |infos| ==>
      && es[i].name == infos[i].name
      && es[i].path == GoPath.Join(p, infos[i].name)
      && es[i].isDirectory == infos[i].isDir
      && es[i].modTime == infos[i].modTime
      && es[i].size == (if infos[i].isDir then 0 else infos[i].size)
    decreases |infos|
  {
    if |infos| == 0 then []
    else [EntryOf(p, infos[0])] + Entries(p, infos[1..])
  }

  /** `GetDirectoryStats(fullPath, p)`: stat the full path, refuse anything
      but a directory, then list it. The root is named "/", anything else by
      its base name; the path is always the logical `p`; `authorized` is left
      false for the caller to set. */
  function GetDirectoryStats(fs: FsView, fullPath: string, p: string): (r: Result<DirectoryStats, string>)
    ensures r.Ok? <==>
      && fs.stat(fullPath).Ok? && fs.stat(fullPath).value.isDir
      && fs.readDir(fullPath).Ok?
    ensures fs.stat(fullPath).Err? ==> r == Err(fs.stat(fullPath).error.Message())
    ensures fs.stat(fullPath).Ok? && !fs.stat(fullPath).value.isDir ==> r == Err(NotADirectory)
    ensures r.Ok? ==>
      var info := fs.stat(fullPath).value;
      var listed := fs.readDir(fullPath).value;
      && r.value.name == (if p == "/" then "/" else info.name)
      && r.value.path == p
      && r.value.modTime == info.modTime
      && r.value.entries == Entries(p, listed)
      && !r.value.authorized
  {
    match fs.stat(fullPath)
    case Err(e) => Err(e.Message())
    case Ok(info) =>
      if !info.isDir then Err(NotADirectory)
      else
        var name := if p == "/" then p else info.name;
        match fs.readDir(fullPath)
        case Err(e) => Err(e)
        case Ok(listed) => Ok(DirectoryStats(name, p, info.modTime, Entries(p, listed), false))
  }

  /** Listing a rooted logical path places each entry with a plain name
      directly below it: the entry's path is the listing's path plus one
      segment, the entry's own name. */
  lemma EntriesAreChildren(p: string, infos: seq<FileInfo>, i: int)
    requires GoPath.IsRooted(p) && 0 <= i < |infos| && GoPath.Plain(infos[i].name)
    ensures GoPath.Segments(Entries(p, infos)[i].path) == GoPath.Segments(p) + [infos[i].name]
  {
    GoPath.JoinChild(p, infos[i].name);
  }

  /** `GetFileStats(fullPath, p)`: base name, logical path, size and
      modification time from the stat, or the stat error. */
  function GetFileStats(fs: FsView, fullPath: string, p: string): (r: Result<FileStats, StatError>)
    ensures fs.stat(fullPath).Err? <==> r.Err?
    ensures r.Err? ==> r.error == fs.stat(fullPath).error
    ensures r.Ok? ==>
      var info := fs.stat(fullPath).value;
      r.value == FileStats(info.name, p, info.size, info.modTime)
  {
    match fs.stat(fullPath)
    case Err(e) => Err(e)
    case Ok(info) => Ok(FileStats(info.name, p, info.size, info.modTime))
  }

  datatype FileResult = FileResult(written: Response, err: Option<string>)

  /** A file asked for in a document format is described by its own stat:
      the base name and size and time the stat reports, under the logical
      path, in the negotiated content type. */
  lemma FileDescriptorFromStat(fs: FsView, fullPath: string, p: string, format: string)
    requires format != "" && fs.stat(fullPath).Ok?
    ensures var info := fs.stat(fullPath).value;
      var r := HandleFile(fs, fullPath, p, format);
      && r.written == Responses.WriteResponse(StatusOK, FilePage, format, FileDoc(FileStats(info.name, p, info.size, info.modTime)))
      && r.written.payload.file.name == info.name && r.written.payload.file.size == info.size
  {
  }

  /** The file handler's `Handle`: with no negotiated format the raw bytes are
      streamed; otherwise a descriptor document is written with 200. A failure
      to open or stat is returned before anything is written; an encoding
      failure is only logged. */
  function HandleFile(fs: FsView, fullPath: string, p: string, format: string): (r: FileResult)
    ensures format == "" ==>
      && (fs.read(fullPath).Ok? ==> r == FileResult(Stream(fs.read(fullPath).value), None))
      && (fs.read(fullPath).Err? ==> r == FileResult(Nothing, Some(fs.read(fullPath).error)))
    ensures format != "" ==>
      && (fs.stat(fullPath).Err? ==> r == FileResult(Nothing, Some(fs.stat(fullPath).error.Message())))
      && (fs.stat(fullPath).Ok? ==>
            && r.err.None?
            && r.written.Document?
            && r.written.status == StatusOK
            && r.written.payload == FileDoc(GetFileStats(fs, fullPath, p).value)
            && r.written.contentType == Responses.ContentTypeFor(format)
            && (r.written.encoder.JsonEncoder? <==> r.written.contentType == Formats.FormatJson)
            && (r.written.encoder.XmlEncoder? <==> r.written.contentType == Formats.FormatXml)
            && (r.written.encoder.HtmlEncoder? ==> r.written.encoder == HtmlEncoder(FilePage)))
    ensures r.written.Stream? <==> format == "" && fs.read(fullPath).Ok?
  {
    if format == "" then
      match fs.read(fullPath)
      case Err(e) => FileResult(Nothing, Some(e))
      case Ok(bytes) => FileResult(Stream(bytes), None)
    else
      match GetFileStats(fs, fullPath, p)
      case Err(e) => FileResult(Nothing, Some(e.Message()))
      case Ok(stats) => FileResult(Responses.WriteResponse(StatusOK, FilePage, format, FileDoc(stats)), None)
  }
}

=== FILE: outcomes.dfy ===
/** Optional values and results with an error, the shapes Go expresses with
    a nil check and an `(value, error)` pair. */
module Outcomes {

  datatype Option<+T> = None | Some(value: T)

  datatype Result<+T, +E> = Ok(value: T) | Err(error: E)
}

=== FILE: paths.dfy ===
/** Go's lexical `path.Clean` and `path.Join`, modelled on path segments.

    Cleaning splits the path at '/', drops empty and "." segments, lets ".."
    cancel the nearest preceding segment that is not itself "..", drops ".."
    that would climb above the root of a rooted path, and renders the result
    ("." when nothing is left of an unrooted path). */
module GoPath {
  import GoStrings

  /** A segment that cleaning keeps as it is on any path. */
  predicate Plain(seg: string) {
    seg != "" && seg != "." && seg != ".." && '/' !in seg
  }

  /** The shape of a cleaned segment list: plain segments, except for a
      leading run of ".." on an unrooted path. */
  ghost predicate Resolved(rooted: bool, stack: seq<string>) {
    && (forall i :: 0 <= i < |stack| ==> Plain(stack[i]) || (!rooted && stack[i] == ".."))
    && (forall i, j :: 0 <= i < j < |stack| && stack[j] == ".." ==> stack[i] == "..")
  }

  /** Processes `segs` left to right on top of the already resolved `stack`. */
  function Resolve(rooted: bool, stack: seq<string>, segs: seq<string>): (r: seq<string>)
    requires Resolved(rooted, stack)
    requires forall i :: 0 <= i < |segs| ==> '/' !in segs[i]
    ensures Resolved(rooted, r)
    decreases |segs|
  {
    if |segs| == 0 then stack
    else
      var s := segs[0];
      if s == "" || s == "." then Resolve(rooted, stack, segs[1..])
      else if s == ".." then
        if |stack| > 0 && stack[|stack| - 1] != ".." then Resolve(rooted, stack[..|stack| - 1], segs[1..])
        else if rooted then Resolve(rooted, stack, segs[1..])
        else Resolve(rooted, stack + [".."], segs[1..])
      else Resolve(rooted, stack + [s], segs[1..])
  }

  predicate IsRooted(p: string) {
    |p| > 0 && p[0] == '/'
  }

  /** The cleaned segment list of `p`. */
  function Segments(p: string): (r: seq<string>)
    ensures Resolved(IsRooted(p), r)
  {
    Resolve(IsRooted(p), [], GoStrings.Split(p, '/'))
  }

  /** Writes a resolved segment list back as a path. */
  function Render(rooted: bool, stack: seq<string>): string {
    if rooted then "/" + GoStrings.Join(stack, '/')
    else if stack == [] then "."
    else GoStrings.Join(stack, '/')
  }

  /** `path.Clean`: never empty, rooted exactly when the input is, and
      naming the same segments as the input. Its pieces between '/' are
      exactly the resolved segments (after a leading "" when rooted), so no
      piece is empty or ".", there is no trailing '/', and ".." only leads
      an unrooted result; nothing left gives "/" or ".". */
  function Clean(p: string): (r: string)
    ensures r != ""
    ensures IsRooted(r) <==> IsRooted(p)
    ensures p != "" ==> Segments(r) == Segments(p)
    ensures p == "" ==> r == "."
    ensures p != "" && Segments(p) == [] ==> r == (if IsRooted(p) then "/" else ".")
    ensures p != "" && Segments(p) != [] ==>
      GoStrings.Split(r, '/') == (if IsRooted(p) then [""] else []) + Segments(p)
  {
    if p == "" then "."
    else
      RenderRooted(IsRooted(p), Segments(p));
      SegmentsOfRender(IsRooted(p), Segments(p));
      RenderPieces(IsRooted(p), Segments(p));
      Render(IsRooted(p), Segments(p))
  }

  /** The pieces of a rendered non-empty list are the list itself, after
      the leading empty piece of a rooted path; an empty list renders as
      "/" or ".". */
  lemma RenderPieces(rooted: bool, st: seq<string>)
    requires Resolved(rooted, st)
    ensures st == [] ==> Render(rooted, st) == (if rooted then "/" else ".")
    ensures st != [] ==> GoStrings.Split(Render(rooted, st), '/') == (if rooted then [""] else []) + st
  {
    assert forall i :: 0 <= i < |st| ==> '/' !in st[i];
    if st != [] {
      GoStrings.SplitJoin(st, '/');
      if rooted {
        SplitRooted(GoStrings.Join(st, '/'));
      } else {
        assert [] + st == st;
      }
    }
  }

  /** `path.Join(a, b)`: empty elements are skipped, the rest joined with '/'
      and cleaned; two empty elements give "". */
  function Join(a: string, b: string): (r: string)
    ensures r == "" <==> a == "" && b == ""
    ensures a != "" ==> (IsRooted(r) <==> IsRooted(a))
    ensures a == "" ==> (IsRooted(r) <==> IsRooted(b))
    ensures r != "" ==> Clean(r) == r
    ensures a != "" ==> Segments(r) == Segments(a + "/" + b)
    ensures a == "" && b != "" ==> Segments(r) == Segments(b)
  {
    if a == "" && b == "" then ""
    else if a == "" then
      CleanIdempotent(b);
      Clean(b)
    else
      assert IsRooted(a + "/" + b) <==> IsRooted(a);
      CleanIdempotent(a + "/" + b);
      Clean(a + "/" + b)
  }

  /** `path.Join` is the clean form of the non-empty parts joined with '/':
      Join's contract pins its result to the one `Clean` gives. */
  lemma JoinIsCleanJoin(a: string, b: string)
    ensures a != "" ==> Join(a, b) == Clean(a + "/" + b)
    ensures a == "" && b != "" ==> Join(a, b) == Clean(b)
  {
    var r := Join(a, b);
    if a != "" || b != "" {
      var x := if a != "" then a + "/" + b else b;
      assert x != "";
      assert IsRooted(r) <==> IsRooted(x);
      assert Segments(r) == Segments(x);
      CleanDependsOnSegments(r, x);
    }
  }

  /** Two non-empty paths with the same rootedness and segments clean to
      the same path. */
  lemma CleanDependsOnSegments(x: string, y: string)
    requires x != "" && y != ""
    requires IsRooted(x) <==> IsRooted(y)
    requires Segments(x) == Segments(y)
    ensures Clean(x) == Clean(y)
  {
  }

  // ---------------------------------------------------------------------
  // Basic facts about resolving

  lemma ResolvedPrefix(rooted: bool, stack: seq<string>, n: nat)
    requires Resolved(rooted, stack) && n <= |stack|
    ensures Resolved(rooted, stack[..n])
  {
  }

  /** Resolving is a left fold, so it can be done in two pieces. */
  lemma {:induction false} ResolveAppend(rooted: bool, stack: seq<string>, a: seq<string>, b: seq<string>)
    requires Resolved(rooted, stack)
    requires forall i :: 0 <= i < |a| ==> '/' !in a[i]
    requires forall i :: 0 <= i < |b| ==> '/' !in b[i]
    ensures Resolve(rooted, stack, a + b) == Resolve(rooted, Resolve(rooted, stack, a), b)
    decreases |a|
  {
    if |a| == 0 {
      assert a + b == b;
    } else {
      assert (a + b)[0] == a[0];
      assert (a + b)[1..] == a[1..] + b;
      var s := a[0];
      if s == "" || s == "." {
        ResolveAppend(rooted, stack, a[1..], b);
      } else if s == ".." {
        if |stack| > 0 && stack[|stack| - 1] != ".." {
          ResolvedPrefix(rooted, stack, |stack| - 1);
          ResolveAppend(rooted, stack[..|stack| - 1], a[1..], b);
        } else if rooted {
          ResolveAppend(rooted, stack, a[1..], b);
        } else {
          ResolveAppend(rooted, stack + [".."], a[1..], b);
        }
      } else {
        ResolveAppend(rooted, stack + [s], a[1..], b);
      }
    }
  }

  /** Resolving segments that are already in resolved shape only pushes them. */
  lemma {:induction false} ResolveResolved(rooted: bool, stack: seq<string>, segs: seq<string>)
    requires Resolved(rooted, stack + segs)
    ensures Resolved(rooted, stack)
    ensures forall i :: 0 <= i < |segs| ==> '/' !in segs[i]
    ensures Resolve(rooted, stack, segs) == stack + segs
    decreases |segs|
  {
    assert stack == (stack + segs)[..|stack|];
    ResolvedPrefix(rooted, stack + segs, |stack|);
    forall i | 0 <= i < |segs| ensures '/' !in segs[i] {
      assert segs[i] == (stack + segs)[|stack| + i];
    }
    if |segs| > 0 {
      var s := segs[0];
      assert s == (stack + segs)[|stack|];
      assert stack + segs == (stack + [s]) + segs[1..];
      ResolveResolved(rooted, stack + [s], segs[1..]);
      if s == ".." {
        assert !rooted;
        if |stack| > 0 {
          assert stack[|stack| - 1] == (stack + segs)[|stack| - 1];
        }
      }
    }
  }

  /** A leading empty segment (the one a rooted path splits into) changes nothing. */
  lemma SplitRooted(rest: string)
    ensures GoStrings.Split("/" + rest, '/') == [""] + GoStrings.Split(rest, '/')
  {
    assert ("/" + rest)[1..] == rest;
  }

  /** The segments of a rendered resolved list are that list. */
  lemma SegmentsOfRender(rooted: bool, stack: seq<string>)
    requires Resolved(rooted, stack)
    ensures Segments(Render(rooted, stack)) == stack
  {
    var r := Render(rooted, stack);
    assert forall i :: 0 <= i < |stack| ==> '/' !in stack[i];
    if rooted {
      var j := GoStrings.Join(stack, '/');
      SplitRooted(j);
      assert IsRooted(r);
      if |stack| == 0 {
        assert GoStrings.Split(r, '/') == ["", ""];
        assert Resolve(rooted, [], ["", ""]) == Resolve(rooted, [], [""]);
      } else {
        GoStrings.SplitJoin(stack, '/');
        assert GoStrings.Split(r, '/') == [""] + stack;
        assert Resolve(true, [], [""] + stack) == Resolve(true, [], stack);
        ResolveResolved(true, [], stack);
        assert [] + stack == stack;
      }
    } else if stack == [] {
      assert r == ".";
      GoStrings.SplitSingle(r, '/');
    } else {
      GoStrings.SplitJoin(stack, '/');
      GoStrings.JoinHead(stack, '/');
      assert r[0] == stack[0][0];
      assert !IsRooted(r);
      ResolveResolved(false, [], stack);
      assert [] + stack == stack;
    }
  }

  // ---------------------------------------------------------------------
  // Properties of Clean

  /** A resolved list is written out as a non-empty path, rooted exactly
      when the list is. */
  lemma RenderRooted(rooted: bool, st: seq<string>)
    requires Resolved(rooted, st)
    ensures Render(rooted, st) != ""
    ensures IsRooted(Render(rooted, st)) <==> rooted
  {
    if !rooted && st != [] {
      GoStrings.JoinHead(st, '/');
      assert Render(rooted, st)[0] == st[0][0];
    }
  }

  /** Clean is a normal form: cleaning twice is cleaning once. */
  lemma CleanIdempotent(p: string)
    ensures Clean(Clean(p)) == Clean(p)
  {
    var c := Clean(p);
    if p == "" {
      GoStrings.SplitSingle(".", '/');
    } else {
      SegmentsOfRender(IsRooted(p), Segments(p));
    }
  }

  /** A resolved unrooted list, written out, never starts with "./": its
      first segment is ".." or a plain segment. */
  lemma RenderNoDotSlash(st: seq<string>)
    requires Resolved(false, st) && st != []
    ensures !GoStrings.HasPrefix(GoStrings.Join(st, '/'), "./")
  {
    var c := GoStrings.Join(st, '/');
    var first := st[0];
    GoStrings.JoinHead(st, '/');
    assert first == ".." || Plain(first);
    assert c[..|first|] == first;
    if |first| == 1 {
      assert first == [first[0]];
      assert first[0] != '.';
      assert c[0] == c[..|first|][0];
    } else {
      assert first[1] != '/';
      assert c[1] == c[..|first|][1];
    }
  }

  /** A cleaned path never starts with "./". */
  lemma CleanNoDotSlash(p: string)
    ensures !GoStrings.HasPrefix(Clean(p), "./")
  {
    if p != "" && !IsRooted(p) && Segments(p) != [] {
      RenderNoDotSlash(Segments(p));
    }
  }

  /** Joining a plain name onto a rooted path names a direct child of it. */
  lemma JoinChild(p: string, name: string)
    requires IsRooted(p) && Plain(name)
    ensures Segments(Join(p, name)) == Segments(p) + [name]
    ensures Join(p, name) == Render(true, Segments(p) + [name])
  {
    var x := p + "/" + name;
    assert x == p + ['/'] + name;
    GoStrings.SplitConcat(p, name, '/');
    GoStrings.SplitSingle(name, '/');
    assert GoStrings.Split(x, '/') == GoStrings.Split(p, '/') + [name];
    ResolveAppend(true, [], GoStrings.Split(p, '/'), [name]);
    var st := Segments(p);
    assert Resolve(true, st, [name]) == Resolve(true, st + [name], []);
    assert IsRooted(x);
    assert Segments(x) == st + [name];
    assert Join(p, name) == Render(true, st + [name]);
    SegmentsOfRender(true, st + [name]);
  }

  // ---------------------------------------------------------------------
  // Joining under a clean directory root

  /** A rooted directory path that is clean apart from one trailing '/' and
      is not the file-system root itself, such as "/var/gfs/storage/". */
  predicate CleanDirRoot(root: string) {
    && |root| >= 2
    && root[|root| - 1] == '/'
    && var t := root[..|root| - 1];
       && IsRooted(t)
       && t != "/"
       && Clean(t) == t
  }

  lemma RootSegments(root: string)
    requires CleanDirRoot(root)
    ensures var t := root[..|root| - 1];
      && |Segments(t)| >= 1
      && t == "/" + GoStrings.Join(Segments(t), '/')
      && root == "/" + GoStrings.Join(Segments(t), '/') + "/"
      && Segments(root) == Segments(t)
  {
    var t := root[..|root| - 1];
    var st := Segments(t);
    assert root == t + "/";
    assert root == t + ['/'] + "";
    GoStrings.SplitConcat(t, "", '/');
    assert GoStrings.Split("", '/') == [""];
    ResolveAppend(true, [], GoStrings.Split(t, '/'), [""]);
    assert Resolve(true, st, [""]) == st;
  }

  /** Where `Join(root, filename)` lands, in segments: the root's segments
      extended by resolving the filename's segments on top of them. */
  lemma JoinUnderRoot(root: string, filename: string)
    requires CleanDirRoot(root)
    ensures var st := Segments(root);
      var st2 := Resolve(true, st, GoStrings.Split(filename, '/'));
      && Join(root, filename) == "/" + GoStrings.Join(st2, '/')
      && Segments(Join(root, filename)) == st2
  {
    var t := root[..|root| - 1];
    RootSegments(root);
    var st := Segments(root);
    var fs := GoStrings.Split(filename, '/');
    var joined := root + "/" + filename;
    assert joined == t + ['/'] + ("/" + filename);
    GoStrings.SplitConcat(t, "/" + filename, '/');
    SplitRooted(filename);
    var segs := GoStrings.Split(joined, '/');
    assert segs == GoStrings.Split(t, '/') + ([""] + fs);
    ResolveAppend(true, [], GoStrings.Split(t, '/'), [""] + fs);
    assert Resolve(true, st, [""] + fs) == Resolve(true, st, fs);
    var st2 := Resolve(true, st, fs);
    assert IsRooted(joined);
    assert Segments(joined) == st2;
    assert Join(root, filename) == Render(true, st2);
    SegmentsOfRender(true, st2);
  }

  /** If the joined pieces of `b` start with the joined pieces of `a` and a
      separator, then `b` extends `a` piece by piece. */
  lemma {:induction false} JoinPrefix(a: seq<string>, b: seq<string>)
    requires |a| >= 1
    requires forall i :: 0 <= i < |a| ==> '/' !in a[i]
    requires forall i :: 0 <= i < |b| ==> '/' !in b[i]
    requires GoStrings.HasPrefix(GoStrings.Join(b, '/'), GoStrings.Join(a, '/') + "/")
    ensures |b| > |a| && b[..|a|] == a
  {
    var x := a[0];
    var ja := GoStrings.Join(a, '/');
    var jb := GoStrings.Join(b, '/');
    var rest := if |a| == 1 then "" else GoStrings.Join(a[1..], '/') + "/";
    assert ja + "/" == x + "/" + rest;
    assert jb[..|x| + 1] == x + "/" by {
      assert (ja + "/")[..|x| + 1] == x + "/";
    }
    assert jb[|x|] == '/';
    assert '/' in jb;
    assert |b| >= 2;
    var y := b[0];
    assert jb == y + "/" + GoStrings.Join(b[1..], '/');
    FirstSlash(jb, x);
    FirstSlash(jb, y);
    assert |y| == |x|;
    assert y == jb[..|y|];
    assert x == jb[..|x|];
    if |a| > 1 {
      var jb' := GoStrings.Join(b[1..], '/');
      assert jb' == jb[|x| + 1..];
      assert GoStrings.HasPrefix(jb', GoStrings.Join(a[1..], '/') + "/") by {
        assert (ja + "/")[|x| + 1..] == GoStrings.Join(a[1..], '/') + "/";
      }
      JoinPrefix(a[1..], b[1..]);
      assert b == [y] + b[1..];
      assert a == [x] + a[1..];
    }
  }

  /** A slash-free `head` followed by '/' fixes where the first '/' of `s` is. */
  lemma FirstSlash(s: string, head: string)
    requires '/' !in head
    requires |head| < |s| && s[..|head|] == head && s[|head|] == '/'
    ensures forall k :: 0 <= k < |s| && s[k] == '/' ==> |head| <= k
  {
    forall k | 0 <= k < |head| ensures s[k] != '/' {
      assert s[k] == head[k];
    }
  }

  /** The string prefix test on rendered rooted paths, stated on segments. */
  lemma RenderedPrefix(st: seq<string>, st2: seq<string>)
    requires |st| >= 1
    requires forall i :: 0 <= i < |st| ==> '/' !in st[i]
    requires forall i :: 0 <= i < |st2| ==> '/' !in st2[i]
    ensures var root := "/" + GoStrings.Join(st, '/') + "/";
      var out := "/" + GoStrings.Join(st2, '/');
      && (GoStrings.HasPrefix(out, root) <==> (|st2| > |st| && st2[..|st|] == st))
      && (GoStrings.HasPrefix(out, root) ==> out == root + GoStrings.Join(st2[|st|..], '/'))
  {
    var root := "/" + GoStrings.Join(st, '/') + "/";
    var out := "/" + GoStrings.Join(st2, '/');
    if GoStrings.HasPrefix(out, root) {
      PrefixExtends(st, st2);
    }
    if |st2| > |st| && st2[..|st|] == st {
      ExtendsPrefix(st, st2);
    }
  }

  /** A rendered path starting with a rendered root and a '/' extends the
      root's segments. */
  lemma PrefixExtends(st: seq<string>, st2: seq<string>)
    requires |st| >= 1
    requires forall i :: 0 <= i < |st| ==> '/' !in st[i]
    requires forall i :: 0 <= i < |st2| ==> '/' !in st2[i]
    requires GoStrings.HasPrefix("/" + GoStrings.Join(st2, '/'), "/" + GoStrings.Join(st, '/') + "/")
    ensures |st2| > |st| && st2[..|st|] == st
  {
    var js := GoStrings.Join(st, '/');
    var js2 := GoStrings.Join(st2, '/');
    var root := "/" + js + "/";
    var out := "/" + js2;
    assert out[1..] == js2;
    assert js2[..|js| + 1] == out[1..|root|] == root[1..];
    assert root[1..] == js + "/";
    JoinPrefix(st, st2);
  }

  /** A segment list extending the root's renders as the root followed by
      the rest. */
  lemma ExtendsPrefix(st: seq<string>, st2: seq<string>)
    requires |st| >= 1
    requires |st2| > |st| && st2[..|st|] == st
    ensures var root := "/" + GoStrings.Join(st, '/') + "/";
      var out := "/" + GoStrings.Join(st2, '/');
      && out == root + GoStrings.Join(st2[|st|..], '/')
      && GoStrings.HasPrefix(out, root)
  {
    var tail := st2[|st|..];
    assert st2 == st + tail;
    GoStrings.JoinAppend(st, tail, '/');
    Regroup(GoStrings.Join(st, '/'), GoStrings.Join(tail, '/'));
  }

  /** "/" + (x + "/" + y) is the rendered root "/" + x + "/" followed by y. */
  lemma Regroup(x: string, y: string)
    ensures "/" + (x + "/" + y) == ("/" + x + "/") + y
    ensures GoStrings.HasPrefix("/" + (x + "/" + y), "/" + x + "/")
  {
    var root := "/" + x + "/";
    assert "/" + (x + "/" + y) == root + y;
    assert (root + y)[..|root|] == root;
  }

  /** The prefix test of the upload handler, on a clean directory root, is
      exactly the test that the output's segments strictly extend the root's:
      the output is a true descendant. */
  lemma PrefixIsDescendant(root: string, filename: string)
    requires CleanDirRoot(root)
    ensures var st := Segments(root);
      var out := Segments(Join(root, filename));
      GoStrings.HasPrefix(Join(root, filename), root) <==> (|out| > |st| && out[..|st|] == st)
  {
    RootSegments(root);
    JoinUnderRoot(root, filename);
    RenderedPrefix(Segments(root), Segments(Join(root, filename)));
  }

  /** Every output the prefix test accepts under a clean directory root is the
      root followed by a non-empty remainder made only of plain segments: no
      "..", no ".", no empty segment. */
  lemma AcceptedRemainder(root: string, filename: string)
    requires CleanDirRoot(root)
    requires GoStrings.HasPrefix(Join(root, filename), root)
    ensures var out := Join(root, filename);
      var rem := out[|root|..];
      && out == root + rem
      && rem != ""
      && var segs := GoStrings.Split(rem, '/');
         forall i :: 0 <= i < |segs| ==> Plain(segs[i])
  {
    RootSegments(root);
    JoinUnderRoot(root, filename);
    var st := Segments(root);
    var st2 := Segments(Join(root, filename));
    RenderedPrefix(st, st2);
    var tail := st2[|st|..];
    var out := Join(root, filename);
    assert out == root + GoStrings.Join(tail, '/');
    assert out[|root|..] == GoStrings.Join(tail, '/');
    forall i | 0 <= i < |tail| ensures Plain(tail[i]) {
      assert tail[i] == st2[|st| + i];
    }
    GoStrings.SplitJoin(tail, '/');
    GoStrings.JoinHead(tail, '/');
  }

  /** Under the file-system root "/" the prefix test accepts every filename. */
  lemma SlashRootAcceptsAll(filename: string)
    ensures GoStrings.HasPrefix(Join("/", filename), "/")
  {
  }

  /** A root that starts with "./" (a relative, unclean root) rejects every
      filename, since a cleaned path never starts with "./". */
  lemma DotRootRejectsAll(root: string, filename: string)
    requires GoStrings.HasPrefix(root, "./")
    ensures !GoStrings.HasPrefix(Join(root, filename), root)
  {
    CleanNoDotSlash(root + "/" + filename);
  }

  /** A filename that climbs out of "/a/b" into "/a/d", written together
      with the root as one joined segment list. */
  lemma SiblingText(a: string, b: string, d: string, x: string)
    ensures "/" + a + "/" + b + "/" + ("../" + d + "/" + x)
      == GoStrings.Join(["", a, b, "..", d, x], '/')
  {
    GoStrings.JoinCons(d, [x], '/');
    GoStrings.JoinCons("..", [d, x], '/');
    GoStrings.JoinCons(b, ["..", d, x], '/');
    GoStrings.JoinCons(a, [b, "..", d, x], '/');
    GoStrings.JoinCons("", [a, b, "..", d, x], '/');
  }

  /** One step of resolving: an empty segment is skipped. */
  lemma SkipStep(rooted: bool, stack: seq<string>, segs: seq<string>)
    requires Resolved(rooted, stack) && |segs| > 0 && segs[0] == ""
    requires forall i :: 0 <= i < |segs| ==> '/' !in segs[i]
    ensures Resolve(rooted, stack, segs) == Resolve(rooted, stack, segs[1..])
  {
  }

  /** One step of resolving: a plain segment is pushed. */
  lemma PushStep(rooted: bool, stack: seq<string>, segs: seq<string>)
    requires Resolved(rooted, stack) && |segs| > 0 && Plain(segs[0])
    requires forall i :: 0 <= i < |segs| ==> '/' !in segs[i]
    ensures Resolved(rooted, stack + [segs[0]])
    ensures Resolve(rooted, stack, segs) == Resolve(rooted, stack + [segs[0]], segs[1..])
  {
  }

  /** One step of resolving: ".." pops a plain top segment. */
  lemma PopStep(rooted: bool, stack: seq<string>, segs: seq<string>)
    requires Resolved(rooted, stack) && |segs| > 0 && segs[0] == ".."
    requires |stack| > 0 && Plain(stack[|stack| - 1])
    requires forall i :: 0 <= i < |segs| ==> '/' !in segs[i]
    ensures Resolved(rooted, stack[..|stack| - 1])
    ensures Resolve(rooted, stack, segs) == Resolve(rooted, stack[..|stack| - 1], segs[1..])
  {
    ResolvedPrefix(rooted, stack, |stack| - 1);
  }

  /** Resolving that list: the ".." cancels `b`. */
  lemma SiblingResolve(a: string, b: string, d: string, x: string)
    requires Plain(a) && Plain(b) && Plain(x) && Plain(d)
    ensures Resolve(true, [], ["", a, b, "..", d, x]) == [a, d, x]
  {
    var s0 := ["", a, b, "..", d, x];
    var s1 := [a, b, "..", d, x];
    var s2 := [b, "..", d, x];
    var s3 := ["..", d, x];
    var s4 := [d, x];
    var s5 := [x];
    assert s0[1..] == s1 && s1[1..] == s2 && s2[1..] == s3;
    assert s3[1..] == s4 && s4[1..] == s5 && s5[1..] == [];
    SkipStep(true, [], s0);
    PushStep(true, [], s1);
    assert [] + [a] == [a];
    PushStep(true, [a], s2);
    assert [a] + [b] == [a, b] && [a, b][..1] == [a];
    PopStep(true, [a, b], s3);
    PushStep(true, [a], s4);
    assert [a] + [d] == [a, d];
    PushStep(true, [a, d], s5);
    assert [a, d] + [x] == [a, d, x];
  }

  lemma SiblingSegments(a: string, b: string, d: string, x: string)
    requires Plain(a) && Plain(b) && Plain(x) && Plain(d)
    ensures Segments("/" + a + "/" + b + "/" + ("../" + d + "/" + x)) == [a, d, x]
  {
    var p := "/" + a + "/" + b + "/" + ("../" + d + "/" + x);
    var segs := ["", a, b, "..", d, x];
    SiblingText(a, b, d, x);
    GoStrings.SplitJoin(segs, '/');
    assert p[0] == '/';
    SiblingResolve(a, b, d, x);
  }

  lemma TwoSegments(a: string, b: string)
    requires Plain(a) && Plain(b)
    ensures Segments("/" + a + "/" + b) == [a, b]
  {
    var rs := ["", a, b];
    GoStrings.JoinCons(a, [b], '/');
    GoStrings.JoinCons("", [a, b], '/');
    assert "/" + a + "/" + b == GoStrings.Join(rs, '/');
    GoStrings.SplitJoin(rs, '/');
    assert ("/" + a + "/" + b)[0] == '/';
    assert rs[1..] == [a, b];
    ResolveResolved(true, [], [a, b]);
  }

  /** Where the climbing filename lands, for any plain target segment `d`. */
  lemma SiblingJoin(a: string, b: string, d: string, x: string)
    requires Plain(a) && Plain(b) && Plain(x) && Plain(d)
    ensures Join("/" + a + "/" + b, "../" + d + "/" + x) == Render(true, [a, d, x])
  {
    var root := "/" + a + "/" + b;
    var filename := "../" + d + "/" + x;
    SiblingSegments(a, b, d, x);
    assert root + "/" + filename == "/" + a + "/" + b + "/" + ("../" + d + "/" + x);
    assert (root + "/" + filename)[0] == '/';
  }

  /** The rendered sibling path, written out. */
  lemma SiblingRender(a: string, d: string, x: string)
    ensures Render(true, [a, d, x]) == "/" + a + "/" + d + "/" + x
  {
    GoStrings.JoinCons(d, [x], '/');
    GoStrings.JoinCons(a, [d, x], '/');
  }

  lemma SiblingOut(a: string, b: string, c: string, x: string)
    requires Plain(a) && Plain(b) && Plain(x) && Plain(b + c)
    ensures Join("/" + a + "/" + b, "../" + b + c + "/" + x) == Render(true, [a, b + c, x])
    ensures Render(true, [a, b + c, x]) == "/" + a + "/" + b + c + "/" + x
  {
    var d := b + c;
    assert "../" + b + c + "/" + x == "../" + d + "/" + x;
    SiblingJoin(a, b, d, x);
    SiblingRender(a, d, x);
    assert "/" + a + "/" + d + "/" + x == "/" + a + "/" + b + c + "/" + x;
  }

  /** Without a trailing slash the prefix test admits a sibling directory.
      Under the root "/a/b" the filename "../bc/x" lands in "/a/bc/x": the
      output starts with the root's characters, but its segments [a, bc, x]
      do not extend the root's [a, b] (for example "/srv/data" admits
      "../data2/x", which lands in "/srv/data2/x"). */
  lemma SiblingEscape(a: string, b: string, c: string, x: string)
    requires Plain(a) && Plain(b) && Plain(x) && Plain(b + c) && c != ""
    ensures var root := "/" + a + "/" + b;
      var out := Join(root, "../" + b + c + "/" + x);
      && out == root + c + "/" + x
      && GoStrings.HasPrefix(out, root)
      && Segments(root) == [a, b]
      && Segments(out) == [a, b + c, x]
      && Segments(out)[..2] != Segments(root)
  {
    var root := "/" + a + "/" + b;
    SiblingOut(a, b, c, x);
    TwoSegments(a, b);
    SegmentsOfRender(true, [a, b + c, x]);
    var out := Join(root, "../" + b + c + "/" + x);
    assert out == root + c + "/" + x;
    assert out[..|root|] == root;
    assert GoStrings.HasPrefix(out, root);
    assert Segments(out) == [a, b + c, x];
    assert Segments(out)[..2] == [a, b + c];
    assert |b + c| != |b|;
  }
}

=== FILE: responses.dfy ===
/** The response encoder shared by every handler: one document, one status,
    one content type chosen from the negotiated format. */
module Responses {
  import opened Formats
  import opened Http

  /** The content type the encoder announces for a negotiated format: JSON
      and XML are recognised by exact match, anything else (including "")
      falls back to HTML. */
  function ContentTypeFor(format: string): (ct: string)
    ensures ct in {FormatHtml, FormatJson, FormatXml}
    ensures ct == FormatJson <==> format == FormatJson
    ensures ct == FormatXml <==> format == FormatXml
  {
    if format == FormatJson then FormatJson
    else if format == FormatXml then FormatXml
    else FormatHtml
  }

  /** `WriteResponse`: writes `payload` with `status`, a content type matching
      the format, and the encoder that belongs to that content type. */
  function WriteResponse(status: int, template: Template, format: string, payload: Payload): (r: Response)
    ensures r.Document?
    ensures r.status == status && r.payload == payload
    ensures r.contentType == ContentTypeFor(format)
    ensures r.encoder.JsonEncoder? <==> r.contentType == FormatJson
    ensures r.encoder.XmlEncoder? <==> r.contentType == FormatXml
    ensures r.encoder.HtmlEncoder? <==> r.contentType == FormatHtml
    ensures r.encoder.HtmlEncoder? ==> r.encoder.template == template
  {
    if format == FormatJson then Document(status, FormatJson, JsonEncoder, payload)
    else if format == FormatXml then Document(status, FormatXml, XmlEncoder, payload)
    else Document(status, FormatHtml, HtmlEncoder(template), payload)
  }
}

=== FILE: server.dfy ===
/** The three routes of the server: `/` serves listings and files, `/login`
    logs in and `/upload` stores files. Each request is answered with the
    `gfs-version` header, what the handlers wrote, and the file system the
    upload handler leaves behind. */
module Server {
  import opened Outcomes
  import opened Formats
  import opened Http
  import opened Settings
  import Responses
  import Headers
  import Authorization
  import Jwt
  import Upload
  import Listing
  import GoPath

  /** Everything a request can consult besides the request itself: the file
      system as the read path sees it, how the file system fails (if at all)
      when an uploaded octet stream is written, the login environment (whose
      JWT library checks tokens as well) and the unmarshalling of a token's
      subject into an empty struct. */
  datatype ServerEnv = ServerEnv(
    fs: Listing.FsView,
    writeFault: Option<IoFault>,
    auth: Authorization.AuthEnv,
    unmarshal: string -> Option<string>)

  datatype Route = RootRoute | LoginRoute | UploadRoute

  /** The route `http.DefaultServeMux` picks: the two exact patterns, and
      the `/` pattern for every other path. */
  function RouteFor(path: string): (r: Route)
    ensures r == LoginRoute <==> path == "/login"
    ensures r == UploadRoute <==> path == "/upload"
  {
    if path == "/login" then LoginRoute
    else if path == "/upload" then UploadRoute
    else RootRoute
  }

  /** The answer to one request: the `gfs-version` header, what was written,
      and the upload store afterwards. */
  datatype Reply = Reply(version: string, response: Response, disk: Upload.Disk)

  /** The client-error handler: the caller's status and the error text. */
  function ClientError(status: int, format: string, msg: string): Response {
    Responses.WriteResponse(status, ClientErrorPage, format, ClientErrorDoc(msg))
  }

  /** The internal-server-error handler: 500 and the error text. */
  function ServerError(format: string, msg: string): Response {
    Responses.WriteResponse(StatusInternalServerError, ServerErrorPage, format, ServerErrorDoc(msg))
  }

  /** The not-found handler: 404 and the logical path. */
  function NotFound(format: string, p: string): Response {
    Responses.WriteResponse(StatusNotFound, NotFoundPage, format, NotFoundDoc(p))
  }

  const NotAuthenticated: string := "Not authenticated"

  function Authenticate(config: Config, req: Request, env: ServerEnv): Jwt.Verdict {
    Authorization.CheckAuthenticated(config, req, env.auth.lib, env.unmarshal)
  }

  /** The GET branch of the `/` handler, after authentication: the path is
      looked up under the serve root; a directory is listed with the
      authentication result, anything else goes to the file handler. When the
      listing fails the 500 page is written and the handler then panics on
      the missing listing. */
  function ServePath(config: Config, p: string, format: string, authorized: bool, fs: Listing.FsView): (r: Response)
    ensures var fullPath := GoPath.Join(config.serve, p);
      && (fs.stat(fullPath) == Err(NotExist) ==> r == NotFound(format, p))
      && (fs.stat(fullPath).Err? && fs.stat(fullPath) != Err(NotExist) ==>
            r == ServerError(format, fs.stat(fullPath).error.Message()))
      && (r.Document? && r.payload.DirectoryDoc? ==>
            && r.status == StatusOK
            && r.payload.dir.authorized == authorized
            && r.payload.dir.path == p)
      && (fs.stat(fullPath).Ok? && fs.stat(fullPath).value.isDir ==>
            (r.Crash? <==> Listing.GetDirectoryStats(fs, fullPath, p).Err?))
      && (fs.stat(fullPath).Ok? && fs.stat(fullPath).value.isDir && Listing.GetDirectoryStats(fs, fullPath, p).Ok? ==>
            r == Responses.WriteResponse(StatusOK, DirectoryPage, format,
                   DirectoryDoc(Listing.GetDirectoryStats(fs, fullPath, p).value.(authorized := authorized))))
      && (r.Crash? ==> r.written.Document? && r.written.status == StatusInternalServerError)
      && (fs.stat(fullPath).Ok? && !fs.stat(fullPath).value.isDir ==>
            r == Listing.HandleFile(fs, fullPath, p, format).written)
  {
    var fullPath := GoPath.Join(config.serve, p);
    match Listing.IsDirectory(fs, fullPath)
    case Err(NotExist) => NotFound(format, p)
    case Err(e) => ServerError(format, e.Message())
    case Ok(isDir) =>
      if isDir then
        match Listing.GetDirectoryStats(fs, fullPath, p)
        case Err(e) => Crash(ServerError(format, e))
        case Ok(stats) =>
          Responses.WriteResponse(StatusOK, DirectoryPage, format, DirectoryDoc(stats.(authorized := authorized)))
      else Listing.HandleFile(fs, fullPath, p, format).written
  }

  /** The `/` handler. Only GET is served; every GET is authenticated, and
      when reading requires a login an unauthenticated request is refused
      before the file system is consulted. A panic while checking the token
      ends the request without an answer. */
  function ServeRoot(config: Config, req: Request, env: ServerEnv): (r: Response)
    ensures req.httpMethod != "GET" ==>
      r == ClientError(StatusMethodNotAllowed, Headers.GetResponseFormat(req.accept),
                       "Unsupported method: '" + req.httpMethod + "'")
    ensures req.httpMethod == "GET" && Authenticate(config, req, env).Panicked? ==> r == Crash(Nothing)
    ensures req.httpMethod == "GET" && config.loginRequiredForRead && Authenticate(config, req, env).Rejected? ==>
      r == ClientError(StatusUnauthorized, Headers.GetResponseFormat(req.accept), NotAuthenticated)
    ensures (&& req.httpMethod == "GET" && !Authenticate(config, req, env).Panicked?
             && (!config.loginRequiredForRead || Authenticate(config, req, env).Accepted?)) ==>
      r == ServePath(config, req.path, Headers.GetResponseFormat(req.accept),
                     Authenticate(config, req, env).Accepted?, env.fs)
  {
    var format := Headers.GetResponseFormat(req.accept);
    if req.httpMethod == "GET" then
      var verdict := Authenticate(config, req, env);
      if verdict.Panicked? then Crash(Nothing)
      else
        var authorized := verdict.Accepted?;
        if config.loginRequiredForRead && !authorized then
          ClientError(StatusUnauthorized, format, NotAuthenticated)
        else ServePath(config, req.path, format, authorized, env.fs)
    else ClientError(StatusMethodNotAllowed, format, "Unsupported method: '" + req.httpMethod + "'")
  }

  /** The POST branch of `/upload`: authentication is required whatever the
      read setting; the upload handler's refusal of a path outside the root is
      a client error, every other upload error a server error. */
  function UploadPost(config: Config, req: Request, env: ServerEnv, disk: Upload.Disk): (r: (Response, Upload.Disk))
    ensures var format := Headers.GetResponseFormat(req.accept);
      var verdict := Authenticate(config, req, env);
      && (verdict.Panicked? ==> r == (Crash(Nothing), disk))
      && (verdict.Rejected? ==> r == (ClientError(StatusUnauthorized, format, verdict.msg), disk))
      && (verdict.Accepted? ==>
            var h := Upload.Handle(config.serve, req, env.writeFault, disk);
            && r.1 == h.disk
            && (h.err == Some(Upload.ErrNoUploadingUp) ==>
                  r.0 == ClientError(StatusBadRequest, format, Upload.UploadError.ErrNoUploadingUp.Message()))
            && (h.err.Some? && h.err != Some(Upload.ErrNoUploadingUp) ==>
                  r.0 == ServerError(format, h.err.value.Message()))
            && (h.err.None? ==> r.0 == h.written))
  {
    var format := Headers.GetResponseFormat(req.accept);
    match Authenticate(config, req, env)
    case Panicked => (Crash(Nothing), disk)
    case Rejected(msg) => (ClientError(StatusUnauthorized, format, msg), disk)
    case Accepted =>
      var h := Upload.Handle(config.serve, req, env.writeFault, disk);
      if h.err == Some(Upload.ErrNoUploadingUp) then
        (ClientError(StatusBadRequest, format, Upload.UploadError.ErrNoUploadingUp.Message()), h.disk)
      else if h.err.Some? then (ServerError(format, h.err.value.Message()), h.disk)
      else (h.written, h.disk)
  }

  /** One request on one route. `/login` and `/upload` handle POST and hand
      every other method to the `/` handler; login errors are only logged. */
  function Serve(route: Route, config: Config, req: Request, env: ServerEnv, disk: Upload.Disk): (r: Reply)
    ensures r.version == GFSVersion
    ensures route == RootRoute ==> r == Reply(GFSVersion, ServeRoot(config, req, env), disk)
    ensures route != RootRoute && req.httpMethod != "POST" ==> r == Reply(GFSVersion, ServeRoot(config, req, env), disk)
    ensures route == LoginRoute && req.httpMethod == "POST" ==>
      r == Reply(GFSVersion,
                 Authorization.Login(config, req, Headers.GetResponseFormat(req.accept), env.auth).written, disk)
    ensures route == UploadRoute && req.httpMethod == "POST" ==>
      var (resp, after) := UploadPost(config, req, env, disk);
      r == Reply(GFSVersion, resp, after)
  {
    match route
    case RootRoute => Reply(GFSVersion, ServeRoot(config, req, env), disk)
    case LoginRoute =>
      if req.httpMethod == "POST" then
        var result := Authorization.Login(config, req, Headers.GetResponseFormat(req.accept), env.auth);
        Reply(GFSVersion, result.written, disk)
      else Reply(GFSVersion, ServeRoot(config, req, env), disk)
    case UploadRoute =>
      if req.httpMethod == "POST" then
        var (resp, after) := UploadPost(config, req, env, disk);
        Reply(GFSVersion, resp, after)
      else Reply(GFSVersion, ServeRoot(config, req, env), disk)
  }

  /** When reading requires a login, an unauthenticated GET is refused with
      401 whatever the file system holds. */
  lemma ReadRefusedBeforeLookup(config: Config, req: Request, env: ServerEnv, other: Listing.FsView)
    requires req.httpMethod == "GET" && config.loginRequiredForRead
    requires Authenticate(config, req, env).Rejected?
    ensures StatusOf(ServeRoot(config, req, env)) == StatusUnauthorized
    ensures ServeRoot(config, req, env) == ServeRoot(config, req, env.(fs := other))
  {
  }

  /** The upload route refuses an unauthenticated POST even when reading is
      open to everyone, and then leaves the store untouched. */
  lemma UploadAlwaysRequiresLogin(config: Config, req: Request, env: ServerEnv, disk: Upload.Disk)
    requires req.httpMethod == "POST"
    requires Authenticate(config, req, env).Rejected?
    ensures var r := Serve(UploadRoute, config, req, env, disk);
      StatusOf(r.response) == StatusUnauthorized && r.disk == disk
  {
  }

  /** The upload route's status for an authenticated POST: 400 for a path
      outside the root, 500 for any other upload error (including a missing
      filename or an unknown content type), otherwise what the handler wrote. */
  lemma UploadStatus(config: Config, req: Request, env: ServerEnv, disk: Upload.Disk)
    requires req.httpMethod == "POST"
    requires Authenticate(config, req, env).Accepted?
    ensures var h := Upload.Handle(config.serve, req, env.writeFault, disk);
      var s := StatusOf(Serve(UploadRoute, config, req, env, disk).response);
      && (h.err == Some(Upload.ErrNoUploadingUp) <==> s == StatusBadRequest)
      && (h.err.Some? && h.err != Some(Upload.ErrNoUploadingUp) <==> s == StatusInternalServerError)
      && (h.err.None? <==> s == StatusOK)
  {
    var format := Headers.GetResponseFormat(req.accept);
    var h := Upload.Handle(config.serve, req, env.writeFault, disk);
    var r := UploadPost(config, req, env, disk).0;
    assert Serve(UploadRoute, config, req, env, disk).response == r;
    if h.err == Some(Upload.ErrNoUploadingUp) {
      assert r == ClientError(StatusBadRequest, format, Upload.UploadError.ErrNoUploadingUp.Message());
    } else if h.err.Some? {
      assert r == ServerError(format, h.err.value.Message());
    } else {
      assert r == h.written;
    }
  }

  /** An authenticated browser-form upload, whose Content-Type is exactly
      `multipart/form-data`, is answered 500 with net/http's missing-boundary
      error and leaves the store as it was. */
  lemma MultipartUploadFails(config: Config, req: Request, env: ServerEnv, disk: Upload.Disk)
    requires req.httpMethod == "POST" && req.contentType == FormatMultipart
    requires Authenticate(config, req, env).Accepted?
    ensures var r := Serve(UploadRoute, config, req, env, disk);
      && r.response == ServerError(Headers.GetResponseFormat(req.accept), Upload.MissingBoundaryText)
      && StatusOf(r.response) == StatusInternalServerError
      && r.disk == disk
  {
    var format := Headers.GetResponseFormat(req.accept);
    var h := Upload.Handle(config.serve, req, env.writeFault, disk);
    Upload.MultipartFailure(config.serve, req, env.writeFault, disk);
    assert h.err == Some(Upload.OtherError(Upload.MissingBoundaryText)) && h.disk == disk;
    assert h.err.Some? && h.err != Some(Upload.ErrNoUploadingUp);
    var up := UploadPost(config, req, env, disk);
    assert up.0 == ServerError(format, h.err.value.Message());
    assert up == (ServerError(format, Upload.MissingBoundaryText), disk);
    assert Serve(UploadRoute, config, req, env, disk) == Reply(GFSVersion, up.0, up.1);
  }

  /** An authenticated upload whose handler fails with an error other than
      the sentinels is answered 500 with that error's text, and the store is
      what the handler left. */
  lemma UploadServerErrorReply(config: Config, req: Request, env: ServerEnv, disk: Upload.Disk, m: string)
    requires req.httpMethod == "POST"
    requires Authenticate(config, req, env).Accepted?
    requires Upload.Handle(config.serve, req, env.writeFault, disk).err == Some(Upload.OtherError(m))
    ensures Serve(UploadRoute, config, req, env, disk)
      == Reply(GFSVersion, ServerError(Headers.GetResponseFormat(req.accept), m),
               Upload.Handle(config.serve, req, env.writeFault, disk).disk)
  {
    var h := Upload.Handle(config.serve, req, env.writeFault, disk);
    var e := h.err.value;
    assert h.err.Some? && h.err != Some(Upload.ErrNoUploadingUp);
    OtherErrorText(e, m);
    var up := UploadPost(config, req, env, disk);
    assert up == (ServerError(Headers.GetResponseFormat(req.accept), m), h.disk);
  }

  lemma OtherErrorText(e: Upload.UploadError, m: string)
    requires e == Upload.OtherError(m)
    ensures e.Message() == m
  {
  }

  /** The read path never answers 202. */
  lemma ServePathNeverAccepted(config: Config, p: string, format: string, authorized: bool, fs: Listing.FsView)
    ensures StatusOf(ServePath(config, p, format, authorized, fs)) != StatusAccepted
  {
    var fullPath := GoPath.Join(config.serve, p);
    var f := Listing.HandleFile(fs, fullPath, p, format);
    assert f.written.Document? ==> f.written.status == StatusOK;
  }

  /** A login never answers 202. */
  lemma LoginNeverAccepted(config: Config, req: Request, format: string, env: Authorization.AuthEnv)
    ensures StatusOf(Authorization.Login(config, req, format, env).written) != StatusAccepted
  {
  }

  /** The `/` handler never answers 202. */
  lemma RootNeverAccepted(config: Config, req: Request, env: ServerEnv)
    ensures StatusOf(ServeRoot(config, req, env)) != StatusAccepted
  {
    var format := Headers.GetResponseFormat(req.accept);
    ServePathNeverAccepted(config, req.path, format, Authenticate(config, req, env).Accepted?, env.fs);
  }

  /** An upload POST never answers 202. */
  lemma UploadPostNeverAccepted(config: Config, req: Request, env: ServerEnv, disk: Upload.Disk)
    ensures StatusOf(UploadPost(config, req, env, disk).0) != StatusAccepted
  {
    if Authenticate(config, req, env).Accepted? {
      AuthenticatedUploadNeverAccepted(config, req, env, disk);
    }
  }

  /** An authenticated upload POST is answered 200, 400 or 500. */
  lemma AuthenticatedUploadNeverAccepted(config: Config, req: Request, env: ServerEnv, disk: Upload.Disk)
    requires Authenticate(config, req, env).Accepted?
    ensures StatusOf(UploadPost(config, req, env, disk).0) in {StatusOK, StatusBadRequest, StatusInternalServerError}
  {
    var r := UploadPost(config, req, env, disk).0;
    var h := Upload.Handle(config.serve, req, env.writeFault, disk);
    assert h.written == Nothing;
    if h.err.None? {
      assert r == Nothing;
    } else if h.err == Some(Upload.ErrNoUploadingUp) {
      assert StatusOf(r) == StatusBadRequest;
    } else {
      assert StatusOf(r) == StatusInternalServerError;
    }
  }

  /** No route ever answers 202 Accepted: a successful upload is answered
      200 with an empty body. */
  lemma NeverAccepted(route: Route, config: Config, req: Request, env: ServerEnv, disk: Upload.Disk)
    ensures StatusOf(Serve(route, config, req, env, disk).response) != StatusAccepted
  {
    RootNeverAccepted(config, req, env);
    if route == LoginRoute && req.httpMethod == "POST" {
      LoginNeverAccepted(config, req, Headers.GetResponseFormat(req.accept), env.auth);
    } else if route == UploadRoute && req.httpMethod == "POST" {
      UploadPostNeverAccepted(config, req, env, disk);
    }
  }

  /** Only an authenticated upload POST changes the store. */
  lemma OnlyUploadsWrite(route: Route, config: Config, req: Request, env: ServerEnv, disk: Upload.Disk)
    requires route != UploadRoute || req.httpMethod != "POST" || !Authenticate(config, req, env).Accepted?
    ensures Serve(route, config, req, env, disk).disk == disk
  {
  }

  /** A listing reports whether the request was authenticated, and a listing
      is only produced for a directory that lists without error. */
  lemma DirectoryIsListed(config: Config, req: Request, env: ServerEnv)
    requires req.httpMethod == "GET" && !Authenticate(config, req, env).Panicked?
    requires !config.loginRequiredForRead || Authenticate(config, req, env).Accepted?
    requires var fullPath := GoPath.Join(config.serve, req.path);
      && env.fs.stat(fullPath).Ok? && env.fs.stat(fullPath).value.isDir
      && Listing.GetDirectoryStats(env.fs, fullPath, req.path).Ok?
    ensures var fullPath := GoPath.Join(config.serve, req.path);
      var stats := Listing.GetDirectoryStats(env.fs, fullPath, req.path).value;
      var r := ServeRoot(config, req, env);
      && r == Responses.WriteResponse(StatusOK, DirectoryPage, Headers.GetResponseFormat(req.accept),
                DirectoryDoc(stats.(authorized := Authenticate(config, req, env).Accepted?)))
      && StatusOf(r) == StatusOK
      && r.payload.dir.entries == Listing.Entries(req.path, env.fs.readDir(fullPath).value)
  {
  }

  lemma ListingReportsAuthentication(config: Config, req: Request, env: ServerEnv)
    requires req.httpMethod == "GET"
    requires var r := ServeRoot(config, req, env); r.Document? && r.payload.DirectoryDoc?
    ensures ServeRoot(config, req, env).payload.dir.authorized == Authenticate(config, req, env).Accepted?
    ensures ServeRoot(config, req, env).payload.dir.path == req.path
  {
  }
}

=== FILE: strings.dfy ===
/** The small part of Go's `strings` package the server relies on: prefix and
    suffix tests, `Split` on a one-character separator and `Join`. */
module GoStrings {

  /** `strings.HasPrefix` */
  predicate HasPrefix(s: string, prefix: string) {
    |prefix| <= |s| && s[..|prefix|] == prefix
  }

  /** The prefix test passes exactly when the string is the prefix followed
      by something. */
  lemma HasPrefixIff(s: string, prefix: string)
    ensures HasPrefix(s, prefix) <==> exists rest :: s == prefix + rest
  {
    if HasPrefix(s, prefix) {
      assert s == prefix + s[|prefix|..];
    }
    if exists rest :: s == prefix + rest {
      var rest :| s == prefix + rest;
      assert s[..|prefix|] == prefix;
    }
  }

  /** `strings.HasSuffix` */
  predicate HasSuffix(s: string, suffix: string) {
    |suffix| <= |s| && s[|s| - |suffix|..] == suffix
  }

  /** `strings.Split(s, string(sep))`: the pieces between separators, in order.
      Like Go, splitting "" yields one empty piece. */
  function Split(s: string, sep: char): (parts: seq<string>)
    ensures |parts| >= 1
    ensures forall i :: 0 <= i < |parts| ==> sep !in parts[i]
    ensures |parts| == 1 <==> sep !in s
  {
    if |s| == 0 then [""]
    else
      var rest := Split(s[1..], sep);
      if s[0] == sep then [""] + rest
      else [[s[0]] + rest[0]] + rest[1..]
  }

  /** `strings.Join(parts, string(sep))` */
  function Join(parts: seq<string>, sep: char): string
  {
    if |parts| == 0 then ""
    else if |parts| == 1 then parts[0]
    else parts[0] + [sep] + Join(parts[1..], sep)
  }

  /** Joining the pieces of a split gives back the original string. */
  lemma {:induction false} JoinSplit(s: string, sep: char)
    ensures Join(Split(s, sep), sep) == s
  {
    if |s| > 0 {
      var rest := Split(s[1..], sep);
      JoinSplit(s[1..], sep);
      if s[0] == sep {
        assert Split(s, sep) == [""] + rest;
        assert ([""] + rest)[1..] == rest;
      } else {
        var parts := Split(s, sep);
        assert parts == [[s[0]] + rest[0]] + rest[1..];
        if |rest| == 1 {
          assert Join(parts, sep) == [s[0]] + rest[0];
        } else {
          assert parts[1..] == rest[1..];
          assert Join(rest, sep) == rest[0] + [sep] + Join(rest[1..], sep);
        }
      }
    }
  }

  /** One step of `Split` on a non-empty string. */
  lemma SplitStep(s: string, sep: char)
    requires |s| > 0
    ensures s[0] == sep ==> Split(s, sep) == [""] + Split(s[1..], sep)
    ensures s[0] != sep ==>
      Split(s, sep) == [[s[0]] + Split(s[1..], sep)[0]] + Split(s[1..], sep)[1..]
  {
  }

  /** Splitting at a separator distributes over the two sides. */
  lemma {:induction false} SplitConcat(a: string, b: string, sep: char)
    ensures Split(a + [sep] + b, sep) == Split(a, sep) + Split(b, sep)
    decreases |a|
  {
    var s := a + [sep] + b;
    if |a| == 0 {
      SplitStep(s, sep);
      assert s[0] == sep && s[1..] == b;
    } else {
      assert s[0] == a[0] && s[1..] == a[1..] + [sep] + b;
      SplitConcat(a[1..], b, sep);
      if a[0] == sep {
        SplitConsSep(s, a, b, sep);
      } else {
        SplitConsChar(s, a, b, sep);
      }
    }
  }

  /** A leading separator on both `s` and `a` keeps `s` splitting as `a`
      followed by `b` when their tails do. */
  lemma SplitConsSep(s: string, a: string, b: string, sep: char)
    requires |s| > 0 && |a| > 0 && s[0] == sep && a[0] == sep
    requires Split(s[1..], sep) == Split(a[1..], sep) + Split(b, sep)
    ensures Split(s, sep) == Split(a, sep) + Split(b, sep)
  {
    SplitStep(s, sep);
    SplitStep(a, sep);
    ConcatAssoc([""], Split(a[1..], sep), Split(b, sep));
  }

  lemma ConcatAssoc<T>(x: seq<T>, y: seq<T>, z: seq<T>)
    ensures x + (y + z) == (x + y) + z
  {
  }

  /** The same leading character, not the separator, on both `s` and `a`
      keeps `s` splitting as `a` followed by `b` when their tails do. */
  lemma SplitConsChar(s: string, a: string, b: string, sep: char)
    requires |s| > 0 && |a| > 0 && s[0] == a[0] && a[0] != sep
    requires Split(s[1..], sep) == Split(a[1..], sep) + Split(b, sep)
    ensures Split(s, sep) == Split(a, sep) + Split(b, sep)
  {
    SplitStep(s, sep);
    SplitStep(a, sep);
    ConsOntoFirst([a[0]], Split(a[1..], sep), Split(b, sep));
  }

  /** Extending the first piece of a concatenation extends the first piece of
      its left part. */
  lemma ConsOntoFirst(x: string, head: seq<string>, right: seq<string>)
    requires |head| >= 1
    ensures [x + (head + right)[0]] + (head + right)[1..] == ([x + head[0]] + head[1..]) + right
  {
    assert (head + right)[0] == head[0];
    assert (head + right)[1..] == head[1..] + right;
  }

  /** Splitting a joined list of separator-free pieces recovers the pieces. */
  lemma {:induction false} SplitJoin(parts: seq<string>, sep: char)
    requires |parts| >= 1
    requires forall i :: 0 <= i < |parts| ==> sep !in parts[i]
    ensures Split(Join(parts, sep), sep) == parts
  {
    if |parts| == 1 {
      assert sep !in parts[0];
      assert Split(parts[0], sep) == [parts[0]] by {
        JoinSplit(parts[0], sep);
      }
    } else {
      SplitJoin(parts[1..], sep);
      SplitConcat(parts[0], Join(parts[1..], sep), sep);
      assert Split(parts[0], sep) == [parts[0]] by {
        JoinSplit(parts[0], sep);
      }
      assert parts == [parts[0]] + parts[1..];
    }
  }

  /** Joining a concatenation puts one separator at the seam. */
  lemma {:induction false} JoinAppend(a: seq<string>, b: seq<string>, sep: char)
    requires |a| >= 1 && |b| >= 1
    ensures Join(a + b, sep) == Join(a, sep) + [sep] + Join(b, sep)
  {
    if |a| == 1 {
      assert (a + b)[1..] == b;
    } else {
      assert (a + b)[1..] == a[1..] + b;
      JoinAppend(a[1..], b, sep);
    }
  }

  /** Joining a list with a head: the head, a separator, the rest. */
  lemma JoinCons(head: string, tail: seq<string>, sep: char)
    requires |tail| >= 1
    ensures Join([head] + tail, sep) == head + [sep] + Join(tail, sep)
  {
    assert ([head] + tail)[1..] == tail;
  }

  /** A string without the separator splits into itself. */
  lemma SplitSingle(s: string, sep: char)
    requires sep !in s
    ensures Split(s, sep) == [s]
  {
    JoinSplit(s, sep);
  }

  /** The joined string starts with the first piece. */
  lemma JoinHead(parts: seq<string>, sep: char)
    requires |parts| >= 1
    ensures HasPrefix(Join(parts, sep), parts[0])
  {
    if |parts| > 1 {
      assert Join(parts, sep) == parts[0] + ([sep] + Join(parts[1..], sep));
    }
  }
}

=== FILE: upload.dfy ===
/** The upload handler: the containment test on output paths, the write of
    one file, the multipart batch and the content-type dispatch.

    The file system is the map from output path to content of the regular
    files the handler may overwrite; the directories `MkdirAll` creates are
    not tracked. How each write fails is part of the input (`IoFault`). */
module Upload {
  import opened Outcomes
  import opened Formats
  import opened Http
  import Headers
  import GoStrings
  import GoPath

  /** The handler's sentinel errors, and any other error passed through. */
  datatype UploadError = ErrNoUploadingUp | ErrNoFilenameProvided | ErrUnknownContentType | OtherError(msg: string)
  {
    function Message(): string {
      match this
      case ErrNoUploadingUp => "Unable to upload up outside the <serve> directory."
      case ErrNoFilenameProvided => "No filename provided. Cannot accept upload"
      case ErrUnknownContentType => "Unknown upload content type. Cannot proceed."
      case OtherError(m) => m
    }
  }

  /** `isUploadClientError`: the three sentinels and nothing else. */
  function IsUploadClientError(e: UploadError): (b: bool)
    ensures b <==> !e.OtherError?
  {
    e == ErrNoUploadingUp || e == ErrNoFilenameProvided || e == ErrUnknownContentType
  }

  type Disk = map<string, seq<Byte>>

  datatype WriteOutcome = WriteOutcome(disk: Disk, err: Option<UploadError>)

  /** An output path the containment test let through: `Join(serve, f)` for
      some filename `f`, starting with the characters of `serve`. */
  ghost predicate Landed(p: string, serve: string) {
    exists f :: p == GoPath.Join(serve, f) && GoStrings.HasPrefix(p, serve)
  }

  /** Going from `before` to `after` deletes nothing, and every path whose
      content changed is one the containment test let through. */
  ghost predicate WritesWithin(before: Disk, after: Disk, serve: string) {
    && before.Keys <= after.Keys
    && forall p :: p in after && (p !in before || after[p] != before[p]) ==> Landed(p, serve)
  }

  lemma WritesWithinTrans(a: Disk, b: Disk, c: Disk, serve: string)
    requires WritesWithin(a, b, serve) && WritesWithin(b, c, serve)
    ensures WritesWithin(a, c, serve)
  {
    forall p | p in c && (p !in a || c[p] != a[p]) ensures Landed(p, serve) {
      if p in b && c[p] == b[p] {
        assert p !in a || b[p] != a[p];
      }
    }
  }

  function Min(a: int, b: int): int {
    if a <= b then a else b
  }

  /** `uploadFile`: joins the filename onto the serve root and refuses the
      result unless it starts with the root's characters; only then creates
      the directories, creates (truncates) the file and copies the content.
      A copy that fails after `written` bytes leaves that much behind. */
  function UploadFile(serve: string, filename: string, content: seq<Byte>, fault: Option<IoFault>, disk: Disk): (r: WriteOutcome)
    ensures var out := GoPath.Join(serve, filename);
      && (r.err == Some(ErrNoUploadingUp) <==> !GoStrings.HasPrefix(out, serve))
      && (r.err == Some(ErrNoUploadingUp) ==> r.disk == disk)
      && (r.err.None? <==> GoStrings.HasPrefix(out, serve) && fault.None?)
      && (r.err.None? ==> r.disk == disk[out := content])
      && (r.err.Some? ==> r.err.value == ErrNoUploadingUp || r.err.value.OtherError?)
      && (forall p :: p in disk && p != out ==> p in r.disk && r.disk[p] == disk[p])
      && r.disk.Keys <= disk.Keys + {out}
    ensures WritesWithin(disk, r.disk, serve)
  {
    var out := GoPath.Join(serve, filename);
    if !GoStrings.HasPrefix(out, serve) then WriteOutcome(disk, Some(ErrNoUploadingUp))
    else
      assert out == GoPath.Join(serve, filename);
      match fault
      case None => WriteOutcome(disk[out := content], None)
      case Some(MkdirFailed(m)) => WriteOutcome(disk, Some(OtherError(m)))
      case Some(CreateFailed(m)) => WriteOutcome(disk, Some(OtherError(m)))
      case Some(CopyFailed(m, n)) => WriteOutcome(disk[out := content[..Min(n, |content|)]], Some(OtherError(m)))
  }

  /** How a failing file system leaves a write that passed the containment
      test: the fault's own error; nothing changed when the directories or
      the file could not be created; the bytes copied before a copy failed
      are left behind. */
  lemma FaultedWrite(serve: string, filename: string, content: seq<Byte>, fault: Option<IoFault>, disk: Disk)
    requires GoStrings.HasPrefix(GoPath.Join(serve, filename), serve)
    requires fault.Some?
    ensures var r := UploadFile(serve, filename, content, fault, disk);
      && r.err == Some(OtherError(fault.value.msg))
      && (!fault.value.CopyFailed? ==> r.disk == disk)
      && (fault.value.CopyFailed? ==>
            r.disk == disk[GoPath.Join(serve, filename) := content[..Min(fault.value.written, |content|)]])
  {
  }

  /** Writing the same name twice without faults keeps the second content
      only: the first write leaves no trace. */
  lemma LastWriteWins(serve: string, filename: string, first: seq<Byte>, second: seq<Byte>, disk: Disk)
    ensures var once := UploadFile(serve, filename, first, None, disk).disk;
      UploadFile(serve, filename, second, None, once).disk == UploadFile(serve, filename, second, None, disk).disk
  {
  }

  /** One part of a multipart batch: opening it, then writing it to the
      upload path joined with its own file name. */
  function WritePart(serve: string, uploadPath: string, part: FilePart, disk: Disk): (r: WriteOutcome)
    ensures part.openFault.Some? ==> r == WriteOutcome(disk, Some(OtherError(part.openFault.value)))
    ensures part.openFault.None? ==>
      r == UploadFile(serve, GoPath.Join(uploadPath, part.filename), part.content, part.writeFault, disk)
    ensures WritesWithin(disk, r.disk, serve)
  {
    match part.openFault
    case Some(e) => WriteOutcome(disk, Some(OtherError(e)))
    case None => UploadFile(serve, GoPath.Join(uploadPath, part.filename), part.content, part.writeFault, disk)
  }

  /** The reference meaning of a batch that succeeds: each part's content
      stored at its target, in order. */
  function Stored(serve: string, uploadPath: string, parts: seq<FilePart>, disk: Disk): Disk
    decreases |parts|
  {
    if |parts| == 0 then disk
    else
      var target := GoPath.Join(serve, GoPath.Join(uploadPath, parts[0].filename));
      Stored(serve, uploadPath, parts[1..], disk[target := parts[0].content])
  }

  datatype BatchOutcome = BatchOutcome(disk: Disk, err: Option<UploadError>, completed: nat)

  /** The loop over the `uploadfiles` parts: parts are written in order and
      the first failure ends the batch; what was written stays written. */
  function WriteBatch(serve: string, uploadPath: string, parts: seq<FilePart>, disk: Disk): (r: BatchOutcome)
    ensures r.completed <= |parts|
    ensures r.err.None? <==> r.completed == |parts|
    ensures r.err.None? ==> r.disk == Stored(serve, uploadPath, parts, disk)
    ensures r.err.Some? ==>
      var failed := WritePart(serve, uploadPath, parts[r.completed], Stored(serve, uploadPath, parts[..r.completed], disk));
      && failed.err == r.err
      && r.disk == failed.disk
    ensures WritesWithin(disk, r.disk, serve)
    decreases |parts|
  {
    if |parts| == 0 then BatchOutcome(disk, None, 0)
    else
      var w := WritePart(serve, uploadPath, parts[0], disk);
      if w.err.Some? then
        assert parts[..0] == [];
        BatchOutcome(w.disk, w.err, 0)
      else
        var rest := WriteBatch(serve, uploadPath, parts[1..], w.disk);
        BatchPrefix(serve, uploadPath, parts, disk, rest.completed);
        WritesWithinTrans(disk, w.disk, rest.disk, serve);
        BatchOutcome(rest.disk, rest.err, rest.completed + 1)
  }

  /** Storing the first k+1 parts is storing the first part, then k more. */
  lemma BatchPrefix(serve: string, uploadPath: string, parts: seq<FilePart>, disk: Disk, k: nat)
    requires k < |parts|
    ensures var target := GoPath.Join(serve, GoPath.Join(uploadPath, parts[0].filename));
      Stored(serve, uploadPath, parts[..k + 1], disk)
        == Stored(serve, uploadPath, parts[1..][..k], disk[target := parts[0].content])
  {
    assert parts[..k + 1][1..] == parts[1..][..k];
  }

  /** A fault-free batch writing the same name twice keeps the later part. */
  lemma BatchLastWriteWins(serve: string, uploadPath: string, a: FilePart, b: FilePart, disk: Disk)
    requires a.filename == b.filename
    ensures var target := GoPath.Join(serve, GoPath.Join(uploadPath, a.filename));
      Stored(serve, uploadPath, [a, b], disk) == disk[target := b.content]
  {
    var target := GoPath.Join(serve, GoPath.Join(uploadPath, a.filename));
    assert [a, b][1..] == [b];
    assert [b][1..] == [];
    var once := disk[target := a.content];
    assert Stored(serve, uploadPath, [a, b], disk) == Stored(serve, uploadPath, [b], once);
    assert Stored(serve, uploadPath, [b], once) == Stored(serve, uploadPath, [], once[target := b.content]);
    assert once[target := b.content] == disk[target := b.content];
  }

  /** What `Handle` leaves behind: the file system, what it wrote to the
      client, and the error it returns to the route. */
  datatype HandleOutcome = HandleOutcome(disk: Disk, written: Response, err: Option<UploadError>)

  /** The text of net/http's `ErrNotMultipart` and `ErrMissingBoundary`. */
  const NotMultipartText: string := "request Content-Type isn't multipart/form-data"
  const MissingBoundaryText: string := "no multipart boundary param in Content-Type"

  /** The media type of a Content-Type value: the text before the first ';'. */
  function MediaType(v: string): string {
    GoStrings.Split(v, ';')[0]
  }

  function DropLeadingSpaces(s: string): string
    decreases |s|
  {
    if |s| > 0 && s[0] == ' ' then DropLeadingSpaces(s[1..]) else s
  }

  /** Some parameter after the media type is named `boundary`. */
  predicate HasBoundaryParam(v: string) {
    var pieces := GoStrings.Split(v, ';');
    exists i :: 1 <= i < |pieces| && GoStrings.HasPrefix(DropLeadingSpaces(pieces[i]), "boundary=")
  }

  /** `Request.ParseMultipartForm` as net/http runs it: the Content-Type must
      name `multipart/form-data` and carry a `boundary` parameter before the
      body is read at all; only then does the body's own decoding decide. */
  function ParseMultipartForm(req: Request): (r: Result<Option<seq<FilePart>>, string>)
    ensures r.Ok? <==>
      MediaType(req.contentType) == FormatMultipart && HasBoundaryParam(req.contentType) && req.body.multipart.Ok?
    ensures MediaType(req.contentType) != FormatMultipart ==> r == Err(NotMultipartText)
    ensures MediaType(req.contentType) == FormatMultipart && !HasBoundaryParam(req.contentType) ==>
      r == Err(MissingBoundaryText)
    ensures r.Ok? ==> r == req.body.multipart
  {
    var v := req.contentType;
    if MediaType(v) != FormatMultipart then Err(NotMultipartText)
    else if !HasBoundaryParam(v) then Err(MissingBoundaryText)
    else req.body.multipart
  }

  /** A Content-Type without any parameter has no boundary, so the form
      never parses; in particular the exact `multipart/form-data` value the
      handler dispatches on fails with the missing-boundary error. */
  lemma NoParameterNoForm(req: Request)
    requires ';' !in req.contentType
    ensures ParseMultipartForm(req).Err?
    ensures req.contentType == FormatMultipart ==> ParseMultipartForm(req) == Err(MissingBoundaryText)
  {
    GoStrings.SplitSingle(req.contentType, ';');
    assert |GoStrings.Split(req.contentType, ';')| == 1;
  }

  /** The multipart branch past the parse: the `uploadfiles` parts are
      written under the form's `path`, and a batch that completes redirects
      there. A parse error is returned unchanged. */
  function MultipartUpload(serve: string, uploadPath: string, parsed: Result<Option<seq<FilePart>>, string>, disk: Disk): (r: HandleOutcome)
    ensures parsed.Err? ==> r == HandleOutcome(disk, Nothing, Some(OtherError(parsed.error)))
    ensures r.written.Redirect? <==> parsed.Ok? && r.err.None?
    ensures r.written.Redirect? ==> r.written == Redirect(uploadPath, None)
    ensures !r.written.Redirect? ==> r.written == Nothing
    ensures parsed.Ok? && r.err.None? ==>
      var parts := if parsed.value.Some? then parsed.value.value else [];
      r.disk == Stored(serve, uploadPath, parts, disk)
    ensures WritesWithin(disk, r.disk, serve)
  {
    match parsed
    case Err(e) => HandleOutcome(disk, Nothing, Some(OtherError(e)))
    case Ok(files) =>
      var parts := if files.Some? then files.value else [];
      var b := WriteBatch(serve, uploadPath, parts, disk);
      if b.err.Some? then HandleOutcome(b.disk, Nothing, b.err)
      else HandleOutcome(b.disk, Redirect(uploadPath, None), None)
  }

  /** `Handle`: the Content-Type header is compared verbatim. The multipart
      branch parses the form and continues with `MultipartUpload`; since the
      value it matched carries no boundary, that parse always fails. An octet
      stream is written to the `filename` query parameter, failing as the
      file system's `fault` says; anything else is refused. */
  function Handle(serve: string, req: Request, fault: Option<IoFault>, disk: Disk): (r: HandleOutcome)
    ensures req.contentType != FormatMultipart && req.contentType != FormatOctetStream ==>
      r == HandleOutcome(disk, Nothing, Some(ErrUnknownContentType))
    ensures req.contentType == FormatMultipart ==>
      r == HandleOutcome(disk, Nothing, Some(OtherError(MissingBoundaryText)))
    ensures req.contentType == FormatOctetStream && QueryValue(req, "filename") == "" ==>
      r == HandleOutcome(disk, Nothing, Some(ErrNoFilenameProvided))
    ensures req.contentType == FormatOctetStream && QueryValue(req, "filename") != "" ==>
      var w := UploadFile(serve, QueryValue(req, "filename"), req.body.raw, fault, disk);
      r == HandleOutcome(w.disk, Nothing, w.err)
    ensures r.written == Nothing
    ensures WritesWithin(disk, r.disk, serve)
  {
    var ct := Headers.GetContentType(req);
    if ct == FormatMultipart then
      NoParameterNoForm(req);
      MultipartUpload(serve, FormValue(req, "path"), ParseMultipartForm(req), disk)
    else if ct == FormatOctetStream then
      var filename := QueryValue(req, "filename");
      if filename == "" then HandleOutcome(disk, Nothing, Some(ErrNoFilenameProvided))
      else
        var w := UploadFile(serve, filename, req.body.raw, fault, disk);
        HandleOutcome(w.disk, Nothing, w.err)
    else HandleOutcome(disk, Nothing, Some(ErrUnknownContentType))
  }

  /** Past a successful parse, a form without an `uploadfiles` field writes
      nothing and still redirects to the form's `path`. */
  lemma NoFilesStillRedirects(serve: string, uploadPath: string, disk: Disk)
    ensures MultipartUpload(serve, uploadPath, Ok(None), disk) == HandleOutcome(disk, Redirect(uploadPath, None), None)
  {
  }

  /** The outcome of the multipart branch, as one fact about `Handle`. */
  lemma MultipartFailure(serve: string, req: Request, fault: Option<IoFault>, disk: Disk)
    requires req.contentType == FormatMultipart
    ensures Handle(serve, req, fault, disk) == HandleOutcome(disk, Nothing, Some(OtherError(MissingBoundaryText)))
    ensures Handle(serve, req, fault, disk).err.value.Message() == MissingBoundaryText
  {
  }

  /** An octet stream whose target passes the containment test, written to
      a file system that fails, is refused with the file system's error; the
      store is as the failed write left it. */
  lemma FaultedStreamFails(serve: string, req: Request, fault: Option<IoFault>, disk: Disk)
    requires req.contentType == FormatOctetStream && QueryValue(req, "filename") != ""
    requires GoStrings.HasPrefix(GoPath.Join(serve, QueryValue(req, "filename")), serve)
    requires fault.Some?
    ensures var w := UploadFile(serve, QueryValue(req, "filename"), req.body.raw, fault, disk);
      Handle(serve, req, fault, disk) == HandleOutcome(w.disk, Nothing, Some(OtherError(fault.value.msg)))
    ensures Handle(serve, req, fault, disk).err.value.Message() == fault.value.msg
  {
    FaultedWrite(serve, QueryValue(req, "filename"), req.body.raw, fault, disk);
  }

  /** Every request the multipart branch takes fails before any part is
      read: nothing is written, nothing changes, and the error is not one of
      the client-error sentinels. */
  lemma MultipartNeverStores(serve: string, req: Request, fault: Option<IoFault>, disk: Disk)
    requires Headers.GetContentType(req) == FormatMultipart
    ensures var h := Handle(serve, req, fault, disk);
      h.disk == disk && h.written == Nothing && h.err.Some? && !IsUploadClientError(h.err.value)
  {
  }

  /** The exact comparison refuses a multipart content type that carries the
      boundary parameter browsers always send. */
  lemma BoundaryParameterRefused(serve: string, req: Request, fault: Option<IoFault>, disk: Disk, boundary: string)
    requires req.contentType == FormatMultipart + "; boundary=" + boundary
    ensures Handle(serve, req, fault, disk) == HandleOutcome(disk, Nothing, Some(ErrUnknownContentType))
  {
    assert |req.contentType| > |FormatMultipart|;
    assert req.contentType[0] == 'm' && FormatOctetStream[0] == 'a';
  }

  /** Under a serve root that is clean apart from its trailing '/', every
      path an upload request changes is the root followed by a non-empty
      remainder made only of plain segments. */
  lemma UploadsStayUnderCleanRoot(serve: string, req: Request, fault: Option<IoFault>, disk: Disk, p: string)
    requires GoPath.CleanDirRoot(serve)
    ensures var after := Handle(serve, req, fault, disk).disk;
      p in after && (p !in disk || after[p] != disk[p]) ==>
        && |p| > |serve| && p[..|serve|] == serve
        && var segs := GoStrings.Split(p[|serve|..], '/');
           forall i :: 0 <= i < |segs| ==> GoPath.Plain(segs[i])
  {
    var after := Handle(serve, req, fault, disk).disk;
    if p in after && (p !in disk || after[p] != disk[p]) {
      var f :| p == GoPath.Join(serve, f) && GoStrings.HasPrefix(p, serve);
      GoPath.AcceptedRemainder(serve, f);
    }
  }
}
